=== FILE: README.md ===
# Outreach CRM core, modelled in Dafny

The system is a small CRM for a video-editing outreach service. A user pastes YouTube
channel URLs. An AI gateway turns them into leads. The user sorts the leads into
campaigns and sends each campaign's template to its leads by e-mail, and the Analytics
and Dashboard pages count the e-mails that went out.

This project models the logic inside those handlers, with every external service
(the database, the AI gateway, the SMTP relay, the session, the clock, `JSON.parse`
and `new Date`) turned into a parameter:

- `OutreachEmail`: the `send-outreach-email` function. It runs the address check, the
  `{name}` / `{channel_name}` personalisation and the order of SMTP steps.
- `Campaigns`: the dispatch pass of the Campaigns page, a fold over the campaign's
  join rows with a `send` oracle. It also covers the send-button guard and the deletion order.
- `Leads`: the Leads page. It covers URL-line splitting, `last_posted` normalisation, the
  insert rows, the with/without-email tabs, selection toggling, and adding leads to a
  campaign.
- `Analytics` and `Dashboard`: status counts, rounded percentages, the trend
  arrow and relative timestamps.
- `ChannelAnalysis`: the `analyze-youtube-channels` function. It builds the prompt,
  checks the reply's shape, strips code fences, cuts out the JSON array, and handles
  each error path.
- `Text`, `Seqs`, `Wrappers` and `Records` hold the shared pieces. `Text` has
  JavaScript's `trim`, `replace` with a global regular expression of literal characters
  (including the `$$`, `$&`, `` $` `` and `$'` patterns of the replacement string),
  `split`/`join` and number display.
  `Seqs` has filter and count. `Wrappers` has `Option`/`Result`. `Records` has the
  table rows.

## Model

| member | source | states |
|---|---|---|
| OutreachEmail.EmailShapeIsPattern | supabase/functions/send-outreach-email/index.ts:19 | The computed shape check accepts exactly the strings in the language of `^[^\s@]+@[^\s@]+\.[^\s@]+$`, in both directions. |
| OutreachEmail.AcceptedAddressShape | supabase/functions/send-outreach-email/index.ts:19-20 | Every accepted address is present and non-empty, with no white space and exactly one `@`. Its local part is non-empty, and its domain has a `.` that is neither first nor last. |
| OutreachEmail.IsEmailShaped | supabase/functions/send-outreach-email/index.ts:19-20 | `emailRegex.test` holds exactly for the strings in the language of `^[^\s@]+@[^\s@]+\.[^\s@]+$`. |
| OutreachEmail.AcceptsAddress | supabase/functions/send-outreach-email/index.ts:19-20 | An address is accepted exactly when it is present, non-empty, not the sentinel "No email found", and in the language of the regular expression. |
| OutreachEmail.SentinelIsNotEmailShaped | supabase/functions/send-outreach-email/index.ts:20 | The analysis sentinel "No email found" never passes the shape check. |
| OutreachEmail.OrDefault | supabase/functions/send-outreach-email/index.ts:59-60 | The name or channel substituted is never empty: it is the lead's own value when that is present and non-empty, and the fallback ("there", "your channel") otherwise. |
| OutreachEmail.Personalize | supabase/functions/send-outreach-email/index.ts:57-64 | Text containing neither token is sent exactly as written. |
| OutreachEmail.PersonalizeWithTokensIsIdentity | supabase/functions/send-outreach-email/index.ts:58-60 | When the name and channel are the tokens themselves, every text comes back unchanged: each occurrence is replaced in place by exactly its own token. |
| OutreachEmail.DollarAmpersandName | supabase/functions/send-outreach-email/index.ts:58-60 | A lead named `$&` is greeted with the token `{name}` itself, because `$&` stands for the match. |
| OutreachEmail.DoubleDollarName | supabase/functions/send-outreach-email/index.ts:58-60 | A lead named `Cash$$` is greeted as `Cash$`, because `$$` stands for one dollar sign. |
| OutreachEmail.DoubleBracedName | supabase/functions/send-outreach-email/index.ts:58-60 | `{{name}}` renders as one pair of braces around the name with its `$` patterns expanded: `$&` as `{name}`, `` $` `` as `{` and `$'` as `}`. This holds when the result has no `{channel_name}`. |
| OutreachEmail.DoubleBracedAna | supabase/functions/send-outreach-email/index.ts:58-60 | `{{name}}` for a lead named Ana renders as `{Ana}`. |
| OutreachEmail.OtherTokensUntouched | supabase/functions/send-outreach-email/index.ts:58-64 | `{email}`, `{platform}` and their double-braced forms are never substituted. |
| OutreachEmail.NameSubstitutedBeforeChannel | supabase/functions/send-outreach-email/index.ts:58-60 | Substitution is sequential. A name that is itself `{channel_name}` is then replaced by the channel, with the channel's `$` patterns expanded against the whole text. A channel without `$` appears as written. |
| OutreachEmail.BothTokensInPlace | supabase/functions/send-outreach-email/index.ts:58-64 | A template holding each token once, around brace-free text, gets the expanded name and the expanded channel in the tokens' places, and nothing else changes. The name's `` $` `` and `$'` refer to the text around `{name}`. The channel's refer to the text around `{channel_name}` after the name was put in. Without `$` in either value, the values appear exactly as written. |
| OutreachEmail.TwoTokensInPlace | supabase/functions/send-outreach-email/index.ts:58-60 | Two sequential global replacements of tokens that share a first character each put the `$`-expanded replacement in their own token's place. |
| OutreachEmail.Handle | supabase/functions/send-outreach-email/index.ts:15-97 | Status is 400 exactly when the address is refused, and then nothing else is done. Status is 200 exactly when credentials are set and the send succeeds, otherwise 500. The one message sent goes to the lead, after reading credentials and building the client, with subject and body personalised identically. |
| Text.Substitute | supabase/functions/send-outreach-email/index.ts:59-60 | A replacement string without `$` is inserted as written. |
| Text.SubstitutePattern | supabase/functions/send-outreach-email/index.ts:59-60 | `$$` gives one `$`, `$&` the match, `` $` `` the input before the match and `$'` the input after it. |
| Text.SubstituteLoneDollar | supabase/functions/send-outreach-email/index.ts:59-60 | A `$` followed by any other character stands for itself. |
| Text.SubstitutePlain | supabase/functions/send-outreach-email/index.ts:59-60 | A `$`-free prefix of the replacement is copied unchanged. |
| Text.ReplaceAll | supabase/functions/send-outreach-email/index.ts:59-60 | Replacing a token that does not occur leaves the text unchanged. |
| Text.ReplaceAllMatchesSpec | supabase/functions/send-outreach-email/index.ts:59-60 | The global replace equals the reference definition: find the leftmost occurrence, put the replacement in its place with `$` patterns expanded against the original input, and continue after it. |
| Text.ReplaceAllWhole | supabase/functions/send-outreach-email/index.ts:59-60 | A text that is exactly the token becomes the expansion of the replacement, with nothing before or after the match. |
| Text.ReplaceAllSelf | supabase/functions/send-outreach-email/index.ts:59-60 | Replacing a `$`-free token by itself leaves the text unchanged. |
| Text.FirstMatch | supabase/functions/send-outreach-email/index.ts:59-60 | The match found is the leftmost occurrence of the token, and none is found exactly when the token does not occur. |
| Text.Trim | src/pages/Leads.tsx:88 | The result has no white space at either end and is never longer than the input. |
| Text.TrimIsSlice | src/pages/Leads.tsx:88 | The trimmed line is the slice of the input left after removing only white space from its start and its end. |
| Text.TrimStartSuffix | src/pages/Leads.tsx:88 | Trimming the start keeps a suffix of the input and drops only white space. |
| Text.TrimEndPrefix | src/pages/Leads.tsx:88 | Trimming the end keeps a prefix of the input and drops only white space. |
| Text.TrimKeepsChars | src/pages/Leads.tsx:88 | Every character of a trimmed line occurs in the original line. |
| Text.TrimEmptyIff | src/pages/Leads.tsx:79 | Trimming gives the empty string exactly when the input is all white space. |
| Text.TrimIdempotent | supabase/functions/analyze-youtube-channels/index.ts:186-190 | Trimming a trimmed string changes nothing. |
| Text.Split | src/pages/Leads.tsx:87 | Splitting gives at least one piece, and no piece contains the separator. |
| Text.SplitJoin | src/pages/Leads.tsx:87 | Joining the pieces of a split with the separator gives back the input. |
| Text.SplitAppend | src/pages/Leads.tsx:87 | Splitting two texts joined by the separator gives the pieces of the first followed by those of the second. |
| Text.NatToStringRoundTrip | src/pages/Dashboard.tsx:99-101 | The decimal digits shown for a count read back as that count. |
| Seqs.FilterPartition | src/pages/Leads.tsx:250-255 | A predicate and its negation split a list: the two filters hold every element exactly as often as the list does. |
| Seqs.FilterAppend | src/pages/Leads.tsx:250-255 | Filtering keeps relative order. |
| Seqs.CountDisjoint | src/pages/Analytics.tsx:39-45 | Counts of two predicates that never hold together add up to the count of their disjunction, and never exceed the length. |
| Campaigns.CanSend | src/pages/Campaigns.tsx:444 | The send button is offered only for a draft campaign with at least one lead, never for an active, paused or completed one. |
| Campaigns.Present | src/pages/Campaigns.tsx:205-207 | The leads visited are exactly the join rows whose lead exists, in join-row order. |
| Campaigns.PresentCountsRealLeads | src/pages/Campaigns.tsx:205-207 | The number of leads visited is the number of join rows with a lead, so dangling rows cost nothing. |
| Campaigns.SendAll | src/pages/Campaigns.tsx:205-249 | The pass makes one request and writes one record per lead, in order, and does not stop on a failure. The success count equals the number of sent records. |
| Campaigns.Dispatch | src/pages/Campaigns.tsx:172-268 | A campaign without a template stops before any read. A failed read of the rows or the template, or a missing user, aborts with no record and no update. Otherwise each real lead gets one record carrying the raw template, marked sent or failed by the send outcome. The pass is exactly `SendAll` over the real leads, so each record also carries the template id and either the send time or the send error. The update sets `sent_count` to the number of sent records and `status` to completed. |
| Campaigns.FinishedPassCompletesCampaign | src/pages/Campaigns.tsx:252-258 | After a finished pass the campaign is completed, its `sent_count` is at most the number of join rows, and the send button (line 444) is no longer offered. |
| Campaigns.RedispatchRepeats | src/pages/Campaigns.tsx:172-268 | A pass does not depend on earlier passes. Dispatching the updated campaign again, with the same reads and outcomes, repeats the same sends and records. |
| Campaigns.UnaddressableLeadFails | src/pages/Campaigns.tsx:209-247 | A lead whose address the outreach function refuses is recorded as failed, and the function did no SMTP work for it. |
| Campaigns.DeleteCampaignKeepsIntegrity | src/pages/Campaigns.tsx:152-170 | Deleting the join rows first keeps every join row pointing at an existing campaign after each step. The campaign and its joins are gone at the end, and everything else is kept. |
| Campaigns.CampaignFirstWouldDangle | src/pages/Campaigns.tsx:157-160 | The opposite order would leave a join row pointing at a missing campaign. |
| Leads.UrlLines | src/pages/Leads.tsx:86-89 | Every URL sent is non-empty, trimmed and free of line breaks (its content is pinned by UrlLinesOneLine and UrlLinesAppend). |
| Leads.UrlLinesOneLine | src/pages/Leads.tsx:86-89 | A single line is sent as its own trim, and nothing is sent for a blank line. |
| Leads.UrlLinesAppend | src/pages/Leads.tsx:86-89 | Line order is kept: two blocks joined by a newline give the first block's URLs followed by the second's. |
| Leads.UrlLinesEmptyIff | src/pages/Leads.tsx:79-89 | The URL list is empty exactly when the pasted text is blank, which is what the guard tests. So every analysis call gets at least one URL. |
| Leads.NormalizeLastPosted | src/pages/Leads.tsx:105-116 | `last_posted` is null for the empty string, "Unknown", "recent estimate", "N/A" or an unparseable date. Otherwise it is the parsed ISO date. |
| Leads.InsertRows | src/pages/Leads.tsx:104-130 | There is one insert row per analysed lead, in order, each with status "new" and the user's id. Name, e-mail, channel name, platform, URL, niche and the ability-to-pay analysis are the lead's own. `last_posted` is normalised. |
| Leads.AnalyzeAndImport | src/pages/Leads.tsx:78-150 | Blank input is refused before analysis. The import succeeds exactly when the analysis returned leads, a user is logged in and the insert succeeds. The rows inserted are then the insert rows of the analysed leads, one per lead. |
| Leads.EmailTabsPartition | src/pages/Leads.tsx:250-255 | Every lead is in exactly one tab. The tabs together hold each lead as often as the list does, with the email test on one side and its negation on the other. |
| Leads.EmailTabsAppend | src/pages/Leads.tsx:250-255 | Both tabs keep the list's order. |
| Leads.HasEmailIsAtSign | src/pages/Leads.tsx:250-252 | A lead is in the with-email tab exactly when its address contains `@`. |
| Leads.Toggle | src/pages/Leads.tsx:171-181 | Toggling flips the membership of one id and leaves every other id as it was, keeping the selection duplicate-free. |
| Leads.ToggleTwice | src/pages/Leads.tsx:171-181 | Toggling twice restores the selection as a set, and restores it exactly when the id was not selected. |
| Leads.ToggleSelectAll | src/pages/Leads.tsx:262-268 | For a duplicate-free selection: when its size equals the number of leads in the tab the result is empty. Otherwise it is every id in the tab, each once. |
| Leads.SelectAllComparesSizesOnly | src/pages/Leads.tsx:264 | A selection of the right size that misses the listed lead still counts as "all selected" and is cleared. |
| Leads.JoinRows | src/pages/Leads.tsx:209-213 | One join row per selected id, in selection order, each pairing the chosen campaign with that lead for the user. |
| Leads.MoveToCampaign | src/pages/Leads.tsx:191-239 | The move is refused when no campaign is chosen, when nothing is selected, and (exactly then) when no user is logged in. Otherwise it builds one join row per selected id, in selection order. When their insert succeeds the move is done, with `total_leads` equal to the selection size. A failed insert reports the duplicate message exactly when the error mentions "duplicate". |
| Leads.ApplyMove | src/pages/Leads.tsx:222-225 | Only `total_leads` changes, and it is set to the batch size. |
| Leads.TotalLeadsIsLastBatch | src/pages/Leads.tsx:222-225 | After two batches `total_leads` is the second batch's size, although both batches' join rows were written. |
| Leads.MoveOffersSend | src/pages/Leads.tsx:222-225 | After leads are added to a draft campaign, its send button (Campaigns.tsx line 444) is offered. |
| Analytics.StatsOf | src/pages/Analytics.tsx:39-45 | `total` is the number of rows. The four status counts never add up to more than `total`. |
| Analytics.StatsOfOne | src/pages/Analytics.tsx:39-45 | A row adds one to `total` and one to the count of its own status, if that status is counted. |
| Analytics.StatsOfAppend | src/pages/Analytics.tsx:39-45 | The counts are additive over rows. |
| Analytics.CountsFitTotal | src/pages/Analytics.tsx:39-45 | Rows with another status count only toward the total. |
| Analytics.Fetch | src/pages/Analytics.tsx:15-21 | With no rows returned all counts stay zero. Otherwise they are the counts of the rows (lines 38-46). |
| Analytics.Percent | src/pages/Analytics.tsx:85 | The percentage is the integer nearest to 100x/y, halves rounded up. It lies in 0..100 when x <= y. |
| Analytics.PercentUnique | src/pages/Analytics.tsx:85 | Only one integer is nearest to 100x/y, so the rounding is pinned down. |
| Analytics.ViewOf | src/pages/Analytics.tsx:83-129 | "% of total" and the failure rate appear exactly when `total > 0`, and the open and reply rates exactly when `sent > 0`, so no rate divides by zero. "% of total" is the rounded share of sent rows in the total, and the failure rate that of failed rows. |
| Analytics.FetchedSharesBounded | src/pages/Analytics.tsx:83-87 | For fetched rows, "% of total" and the failure rate lie in 0..100 (lines 125-129). |
| Analytics.OpenRateReachesHundred | src/pages/Analytics.tsx:97-101 | As written, the open rate is at least 100% as soon as at least as many e-mails are opened as are still "sent". |
| Analytics.ThreeHundredPercentOpenRate | src/pages/Analytics.tsx:97-101 | One waiting and three opened e-mails show a 300% open rate. |
| Analytics.DeliveredRates | src/pages/Analytics.tsx:97-115 | Open and reply rates over all delivered e-mails appear exactly when something was delivered, and lie in 0..100. |
| Analytics.DeliveredOpenRate | src/pages/Analytics.tsx:97-101 | For the example above the delivered open rate is 75%. |
| Dashboard.StatsOf | src/pages/Dashboard.tsx:52-54 | `replies <= emailsSent`. The conversion rate is 0 when nothing was sent, and otherwise the rounded share of replies (line 80), always within 0..100. |
| Dashboard.EmailsSentMatchesAnalytics | src/pages/Dashboard.tsx:52-53 | "Emails Sent" is the Analytics page's sent + opened + replied, and "Replies" is its replied count. |
| Dashboard.ConversionLabel | src/pages/Dashboard.tsx:132 | The conversion line is shown exactly when something was sent. |
| Dashboard.TrendOf | src/pages/Dashboard.tsx:140 | The trend is up exactly above 10, and down exactly at 5 or below. |
| Dashboard.TrendMonotone | src/pages/Dashboard.tsx:140 | A higher conversion rate never shows a worse trend. |
| Dashboard.ActivityOf | src/pages/Dashboard.tsx:69-74 | There is one activity per row, with the row's id, lead name and status. The timestamp is empty exactly when `sent_at` is null or empty. |
| Dashboard.AgeOf | src/pages/Dashboard.tsx:90-102 | An empty timestamp is "not available" and an unparseable one is NaN. Otherwise the unit is minutes below one hour, hours below one day and days beyond, with the amount the floor of the age in that unit. |
| Dashboard.RenderEndsWithAgo | src/pages/Dashboard.tsx:91-101 | Only the empty timestamp renders as "N/A". Every other age ends in " ago". |
| Dashboard.FormatTimestamp | src/pages/Dashboard.tsx:90-102 | The output is "N/A" exactly for the empty timestamp, and ends in " ago" otherwise. |
| Dashboard.RenderedAgeReadsBack | src/pages/Dashboard.tsx:99-101 | The number in front of the unit reads back as the age's amount. A negative age, from a send time in the future, is printed as `-` and then the digits of its absolute value. |
| Dashboard.UnsentActivityIsNotAvailable | src/pages/Dashboard.tsx:73 | An e-mail with no send time shows "N/A". |
| ChannelAnalysis.UserPrompt | supabase/functions/analyze-youtube-channels/index.ts:138 | The prompt starts with the fixed header. |
| ChannelAnalysis.PromptMentionsEveryUrl | supabase/functions/analyze-youtube-channels/index.ts:138 | Every URL handed in occurs in the prompt. |
| ChannelAnalysis.StripJsonFence | supabase/functions/analyze-youtube-channels/index.ts:187 | A leading fence tagged `json`, in any case, is removed with all the white space after it, and what remains is the rest of the text. Text without that fence is left alone. |
| ChannelAnalysis.StripFence | supabase/functions/analyze-youtube-channels/index.ts:188 | A leading untagged fence is removed with all the white space after it. Text without a leading fence is left alone. |
| ChannelAnalysis.StripTrailingFence | supabase/functions/analyze-youtube-channels/index.ts:189 | A closing fence at the end is removed with all the white space before it, and what remains is the start of the text. Text without that fence is left alone. |
| ChannelAnalysis.Clean | supabase/functions/analyze-youtube-channels/index.ts:186-190 | The cleaned answer has no white space at its ends and is no longer than the answer. |
| ChannelAnalysis.CleanUnfenced | supabase/functions/analyze-youtube-channels/index.ts:186-190 | An answer without fences is only trimmed. |
| ChannelAnalysis.CleanFenced | supabase/functions/analyze-youtube-channels/index.ts:186-190 | A trimmed body inside a fence, tagged `json` or untagged, on lines of its own, comes out unchanged. |
| ChannelAnalysis.FencedAnswerParsesAsBody | supabase/functions/analyze-youtube-channels/index.ts:186-197 | A fenced answer reaches the parser exactly as the unfenced body would. |
| ChannelAnalysis.JsonSpan | supabase/functions/analyze-youtube-channels/index.ts:193-197 | When some `[` precedes some `]`, the text parsed runs from the first `[` to the last `]`. Otherwise the whole cleaned text is parsed. |
| ChannelAnalysis.JsonSpanIdempotent | supabase/functions/analyze-youtube-channels/index.ts:193-195 | Cutting out the array twice changes nothing more. |
| ChannelAnalysis.ParseAnswer | supabase/functions/analyze-youtube-channels/index.ts:179-203 | A missing answer is a parse failure. Otherwise the leads are those parsed from the cleaned array span. |
| ChannelAnalysis.Handle | supabase/functions/analyze-youtube-channels/index.ts:24-222 | A missing key fails before the gateway is called. A rejected `fetch` or a failed read of the reply body gives 500 with the thrown message. Each later failure (gateway status, invalid JSON, missing `choices[0].message`, unparseable answer) gives 500 with its own message and no leads. The response is 200 with the parsed leads exactly when every step succeeds. |

## Left out

- External services are parameters, not behaviour. This covers the database reads and
  writes, `supabase.auth.getUser`, `supabase.functions.invoke`, the AI gateway
  `fetch`, the SMTP client, `JSON.parse`, `new Date(...)`/`toISOString`, `Date.now`
  and the `confirm()` dialog.
- Request decoding (`req.json()`), CORS/`OPTIONS` handling, response headers, console
  logging, toasts, loading flags, dialogs and other React state are not modelled.
  Neither is the page that lists and deletes single leads.
- The concurrency of `async` handlers is not modelled. This includes a campaign
  dispatched twice by a double click. `Campaigns.RedispatchRepeats` states only that a
  pass does not depend on earlier passes.
- The generated type declarations (`src/integrations/supabase/types.ts`), the layout,
  the stat card and the settings page carry no behaviour. The `Records` datatypes
  follow their fields, and a null column is written as `Option` where the logic looks
  at it. A null lead e-mail is modelled as the empty string, which the with-email
  test treats the same way.
- Analytics.Percent: computes `Math.round(x / y * 100)` in exact arithmetic, so
  floating-point rounding at exact halves is not modelled.
- Dashboard.StatsOf: the conversion rate is the exact rounded percentage. The same
  floating-point caveat applies.
- Campaigns.Dispatch: the errors of the record inserts and of the final campaign
  update are ignored by the page, so the model treats them as always applied. The
  `functions.invoke` error message for a non-2xx reply is taken to be the constant
  `Campaigns.InvokeError`. The send outcome and the clock are functions of the attempt
  number, so two leads with identical requests may fare differently.
- Campaigns.DeleteCampaignKeepsIntegrity: the page ignores the error of the join-row
  delete. The model performs both deletes when confirmed and does not model a failed
  first delete.
- Leads.MoveToCampaign: the error of the `total_leads` update is ignored by the page.
  The model applies the update.
- Leads.AnalyzeAndImport: the analysis result's `leads` field is taken to be a list of
  analysed leads or missing. Other JSON shapes, and a missing `data`, are not modelled.
- ChannelAnalysis.Handle: the `JSON.parse` oracles return a payload or the leads
  array, or fail. A reply that parses to `null` and an answer that parses to a
  non-array are not modelled. The system prompt's wording is not modelled.
- OutreachEmail.Handle: a failure while closing the SMTP client after a successful
  send is not modelled.

## Findings

| source | as written | input that shows it | evidently intended | confidence | as-written member | corrected member |
|---|---|---|---|---|---|---|
| src/pages/Analytics.tsx:97-115 | The open and reply rates divide by the number of e-mails whose status is still "sent". An opened or replied e-mail no longer has that status. | One e-mail with status "sent" and three with status "opened" show a 300% open rate. | A rate over the delivered e-mails (sent + opened + replied, the Dashboard's "Emails Sent"), which stays within 0..100. For the same input that is 75%. | medium, not executed | Analytics.OpenRateReachesHundred | Analytics.DeliveredRates |

=== FILE: analytics.dfy ===
/** The Analytics page: counting the user's emails by status and the percentages shown
    under each count. */
module Analytics {
  import opened Wrappers
  import Seqs

  /** The per-status counts; all zero until a fetch returns rows. `opens` is the
      count of rows whose status is "opened". */
  datatype Stats = Stats(total: nat, sent: nat, opens: nat, replied: nat, failed: nat)

  const Zero := Stats(0, 0, 0, 0, 0)

  predicate IsSentStatus(s: string) { s == "sent" }
  predicate IsOpenedStatus(s: string) { s == "opened" }
  predicate IsRepliedStatus(s: string) { s == "replied" }
  predicate IsFailedStatus(s: string) { s == "failed" }

  /** The four named statuses are distinct, so their counts never overlap and never
      add up to more than the number of rows. */
  lemma CountsFitTotal(statuses: seq<string>)
    ensures Seqs.Count(statuses, IsSentStatus) + Seqs.Count(statuses, IsOpenedStatus)
          + Seqs.Count(statuses, IsRepliedStatus) + Seqs.Count(statuses, IsFailedStatus) <= |statuses|
  {
    var so := (s: string) => IsSentStatus(s) || IsOpenedStatus(s);
    var rf := (s: string) => IsRepliedStatus(s) || IsFailedStatus(s);
    var all := (s: string) => so(s) || rf(s);
    Seqs.CountDisjoint(statuses, IsSentStatus, IsOpenedStatus, so);
    Seqs.CountDisjoint(statuses, IsRepliedStatus, IsFailedStatus, rf);
    Seqs.CountDisjoint(statuses, so, rf, all);
  }

  /** The counts for the `status` column of the user's email rows. */
  function StatsOf(statuses: seq<string>): (st: Stats)
    ensures st.total == |statuses|
    ensures st.sent + st.opens + st.replied + st.failed <= st.total
    ensures st.sent <= st.total && st.opens <= st.total && st.replied <= st.total && st.failed <= st.total
  {
    CountsFitTotal(statuses);
    Stats(|statuses|,
          Seqs.Count(statuses, IsSentStatus),
          Seqs.Count(statuses, IsOpenedStatus),
          Seqs.Count(statuses, IsRepliedStatus),
          Seqs.Count(statuses, IsFailedStatus))
  }

  function Add(a: Stats, b: Stats): Stats {
    Stats(a.total + b.total, a.sent + b.sent, a.opens + b.opens, a.replied + b.replied, a.failed + b.failed)
  }

  /** One row adds one to the total and one to the count of its own status, if any. */
  lemma StatsOfOne(st: string)
    ensures StatsOf([st]) == Stats(1, if IsSentStatus(st) then 1 else 0, if IsOpenedStatus(st) then 1 else 0,
                                   if IsRepliedStatus(st) then 1 else 0, if IsFailedStatus(st) then 1 else 0)
  {
    assert [st][1..] == [];
  }

  /** Counting is additive over the rows, so the counts do not depend on how the rows
      are batched. */
  lemma StatsOfAppend(a: seq<string>, b: seq<string>)
    ensures StatsOf(a + b) == Add(StatsOf(a), StatsOf(b))
  {
    Seqs.CountAppend(a, b, IsSentStatus);
    Seqs.CountAppend(a, b, IsOpenedStatus);
    Seqs.CountAppend(a, b, IsRepliedStatus);
    Seqs.CountAppend(a, b, IsFailedStatus);
  }

  /** `fetchAnalytics`: a failed read leaves the counts at zero. */
  function Fetch(emails: Option<seq<string>>): (st: Stats)
    ensures emails.None? ==> st == Zero
    ensures emails.Some? ==> st.total == |emails.value| && st == StatsOf(emails.value)
  {
    match emails
    case None => Zero
    case Some(statuses) => StatsOf(statuses)
  }

  // ------------------------------------------------------------- percentages

  /** `Math.round(x / y * 100)` in exact arithmetic: the integer nearest to 100x/y,
      halves rounded up. */
  function Percent(x: nat, y: nat): (r: nat)
    requires y > 0
    ensures -(y as int) <= 2 * (100 * x) - 2 * (r * y) < y
    ensures x <= y ==> r <= 100
    ensures x == 0 ==> r == 0
    ensures x == y ==> r == 100
  {
    RoundedPercent(x, y);
    (200 * x + y) / (2 * y)
  }

  lemma RoundedPercent(x: nat, y: nat)
    requires y > 0
    ensures var r := (200 * x + y) / (2 * y);
      && -(y as int) <= 2 * (100 * x) - 2 * (r * y) < y
      && (x <= y ==> r <= 100)
      && (x == 0 ==> r == 0)
      && (x == y ==> r == 100)
  {
    var r := (200 * x + y) / (2 * y);
    DivBounds(200 * x + y, 2 * y);
    assert 2 * y * r == 2 * (r * y);
    if x <= y && r > 100 {
      MulMono(101, r, 2 * y);
    }
    if x == y && r < 100 {
      MulMono(r, 99, 2 * y);
    }
  }

  lemma DivBounds(a: nat, b: nat)
    requires b > 0
    ensures b * (a / b) <= a < b * (a / b) + b
  {
  }

  lemma MulMono(a: int, b: int, c: nat)
    requires a <= b
    ensures a * c <= b * c
  {
    assert b * c - a * c == (b - a) * c;
  }

  /** The nearest-integer property pins the percentage down: no other number meets it. */
  lemma PercentUnique(x: nat, y: nat, r: int)
    requires y > 0
    requires -(y as int) <= 2 * (100 * x) - 2 * (r * y) < y
    ensures r == Percent(x, y)
  {
    var p := Percent(x, y);
    if r < p {
      assert (r + 1) * y == r * y + y;
      MulMono(r + 1, p, y);
    } else if r > p {
      assert (p + 1) * y == p * y + y;
      MulMono(p + 1, r, y);
    }
  }

  /** The lines shown under the counts; `None` where the page shows nothing. */
  datatype View = View(
    sentShare: Option<nat>,     // "% of total"
    openRate: Option<nat>,      // "% open rate"
    replyRate: Option<nat>,     // "% reply rate"
    failureRate: Option<nat>,   // "% failure rate"
    showEmptyState: bool)

  function ViewOf(st: Stats): (v: View)
    ensures v.sentShare.Some? <==> st.total > 0
    ensures v.failureRate.Some? <==> st.total > 0
    ensures v.openRate.Some? <==> st.sent > 0
    ensures v.replyRate.Some? <==> st.sent > 0
    ensures v.showEmptyState <==> st.total == 0
    ensures st.sent <= st.total && v.sentShare.Some? ==> v.sentShare.value <= 100
    ensures st.failed <= st.total && v.failureRate.Some? ==> v.failureRate.value <= 100
    ensures v.sentShare.Some? ==> v.sentShare.value == Percent(st.sent, st.total)
    ensures v.failureRate.Some? ==> v.failureRate.value == Percent(st.failed, st.total)
    ensures v.openRate.Some? ==> v.openRate.value == Percent(st.opens, st.sent)
    ensures v.replyRate.Some? ==> v.replyRate.value == Percent(st.replied, st.sent)
  {
    View(if st.total > 0 then Some(Percent(st.sent, st.total)) else None,
         if st.sent > 0 then Some(Percent(st.opens, st.sent)) else None,
         if st.sent > 0 then Some(Percent(st.replied, st.sent)) else None,
         if st.total > 0 then Some(Percent(st.failed, st.total)) else None,
         st.total == 0)
  }

  /** The shares of the total shown for fetched rows are always percentages. */
  lemma FetchedSharesBounded(statuses: seq<string>)
    ensures var v := ViewOf(StatsOf(statuses));
      && (v.sentShare.Some? ==> v.sentShare.value <= 100)
      && (v.failureRate.Some? ==> v.failureRate.value <= 100)
  {
  }

  /** The open rate divides by the rows whose status is still "sent"; an email that
      was opened no longer has that status, so the rate reaches 100% as soon as as many
      emails are opened as are waiting. */
  lemma OpenRateReachesHundred(st: Stats)
    requires 0 < st.sent <= st.opens
    ensures ViewOf(st).openRate.Some?
    ensures ViewOf(st).openRate.value >= 100
  {
    var r := Percent(st.opens, st.sent);
    if r < 100 {
      MulMono(r, 99, st.sent);
    }
  }

  /** One waiting email and three opened ones show a 300% open rate. */
  lemma ThreeHundredPercentOpenRate(st: Stats)
    requires st.sent == 1 && st.opens == 3
    ensures ViewOf(st).openRate == Some(300)
  {
  }

  /** Every email that left the outbox: waiting, opened or replied. */
  function Delivered(st: Stats): nat {
    st.sent + st.opens + st.replied
  }

  /** Open and reply rates over the delivered emails, the denominator the dashboard
      uses for "Emails Sent"; these stay within 0..100. */
  function DeliveredRates(st: Stats): (rates: (Option<nat>, Option<nat>))
    ensures rates.0.Some? <==> Delivered(st) > 0
    ensures rates.1.Some? <==> Delivered(st) > 0
    ensures rates.0.Some? ==> rates.0.value <= 100
    ensures rates.1.Some? ==> rates.1.value <= 100
  {
    if Delivered(st) > 0 then (Some(Percent(st.opens, Delivered(st))), Some(Percent(st.replied, Delivered(st))))
    else (None, None)
  }

  /** For the same emails, none replied, the delivered open rate is 75%. */
  lemma DeliveredOpenRate(st: Stats)
    requires st.sent == 1 && st.opens == 3 && st.replied == 0
    ensures DeliveredRates(st).0 == Some(75)
  {
  }
}

=== FILE: campaigns.dfy ===
/** The Campaigns page: the send-eligibility rule, the dispatch pass that emails every
    lead of a campaign and logs each attempt, and campaign deletion. */
module Campaigns {
  import opened Wrappers
  import opened Records
  import Seqs
  import OutreachEmail

  const StatusDraft := "draft"
  const StatusCompleted := "completed"
  const StatusSent := "sent"
  const StatusFailed := "failed"
  const NotLoggedIn := "User not logged in"

  /** The "Send Emails" button is shown only for a draft campaign that has leads. */
  function CanSend(c: Campaign): (shown: bool)
    ensures shown ==> c.status == StatusDraft && c.totalLeads >= 1
    ensures c.status == "active" || c.status == "paused" || c.status == StatusCompleted ==> !shown
  {
    c.status == StatusDraft && c.totalLeads > 0
  }

  // ----------------------------------------------------------- dispatch pass

  /** A `campaign_leads` row joined with its lead; `None` when the lead row is gone. */
  datatype JoinedRow = JoinedRow(leadId: string, lead: Option<Lead>)

  /** What the store and the session answer during one pass: the join rows (whose
      data may be `null` without an error), the template by id, and the user id. */
  datatype StoreReads = StoreReads(
    joinRows: Result<Option<seq<JoinedRow>>>,
    template: Result<Template>,
    user: Option<string>)

  /** The leads behind the join rows, in row order, skipping dangling rows. */
  function Present(rows: seq<JoinedRow>): (leads: seq<Lead>)
    ensures |leads| <= |rows|
    ensures forall i :: 0 <= i < |rows| && rows[i].lead.Some? ==> rows[i].lead.value in leads
    ensures forall l :: l in leads ==> exists i :: 0 <= i < |rows| && rows[i].lead == Some(l)
    decreases |rows|
  {
    if rows == [] then []
    else
      var rest := Present(rows[1..]);
      assert forall i :: 1 <= i < |rows| ==> rows[i] == rows[1..][i - 1];
      if rows[0].lead.Some? then [rows[0].lead.value] + rest else rest
  }

  /** Rows are handled in order: the leads of a concatenation are the leads of each part. */
  lemma {:induction false} PresentAppend(a: seq<JoinedRow>, b: seq<JoinedRow>)
    ensures Present(a + b) == Present(a) + Present(b)
    decreases |a|
  {
    if a == [] {
      assert a + b == b;
    } else {
      assert (a + b)[0] == a[0];
      assert (a + b)[1..] == a[1..] + b;
      PresentAppend(a[1..], b);
    }
  }

  /** Dangling rows contribute nothing. */
  lemma {:induction false} PresentCountsRealLeads(rows: seq<JoinedRow>)
    ensures |Present(rows)| == Seqs.Count(rows, (r: JoinedRow) => r.lead.Some?)
    decreases |rows|
  {
    if rows != [] {
      PresentCountsRealLeads(rows[1..]);
    }
  }

  /** The body of the invocation of the outreach function for one lead: the template's
      raw subject and body, which the function personalises. */
  function RequestFor(lead: Lead, template: Template): OutreachEmail.SendRequest {
    OutreachEmail.SendRequest(Some(lead.email), Some(lead.name), lead.channelName, template.subject, template.body)
  }

  /** The `emails` row logged for one attempt. */
  function RecordFor(lead: Lead, template: Template, campaignId: string, userId: string,
                     outcome: Result<()>, sentAt: string): EmailRecord
  {
    match outcome
    case Success(_) =>
      EmailRecord(userId, lead.id, campaignId, template.id, template.subject, template.body,
                  StatusSent, Some(sentAt), None)
    case Failure(message) =>
      EmailRecord(userId, lead.id, campaignId, template.id, template.subject, template.body,
                  StatusFailed, None, Some(message))
  }

  predicate IsSent(r: EmailRecord) {
    r.status == StatusSent
  }

  /** What a pass did: one invocation and one logged record per lead, and its success counter. */
  datatype Pass = Pass(requests: seq<OutreachEmail.SendRequest>, records: seq<EmailRecord>, successCount: nat)

  /** The send loop over the real leads: `send(k, req)` is the outcome of the `k`-th
      invocation of the outreach function, and `clock(k)` is the time of that attempt.
      A failed send is logged and the loop goes on. */
  function SendAll(leads: seq<Lead>, template: Template, campaignId: string, userId: string,
                   send: (nat, OutreachEmail.SendRequest) -> Result<()>, clock: nat -> string): (p: Pass)
    ensures |p.requests| == |leads| && |p.records| == |leads|
    ensures forall k :: 0 <= k < |leads| ==>
      && p.requests[k] == RequestFor(leads[k], template)
      && p.records[k] == RecordFor(leads[k], template, campaignId, userId, send(k, p.requests[k]), clock(k))
    ensures p.successCount == Seqs.Count(p.records, IsSent)
    decreases |leads|
  {
    if leads == [] then Pass([], [], 0)
    else
      var k := |leads| - 1;
      var prev := SendAll(leads[..k], template, campaignId, userId, send, clock);
      var req := RequestFor(leads[k], template);
      var rec := RecordFor(leads[k], template, campaignId, userId, send(k, req), clock(k));
      Seqs.CountAppend(prev.records, [rec], IsSent);
      var requests, records := prev.requests + [req], prev.records + [rec];
      assert forall j :: 0 <= j < |leads| ==>
        && requests[j] == RequestFor(leads[j], template)
        && records[j] == RecordFor(leads[j], template, campaignId, userId, send(j, requests[j]), clock(j)) by {
        forall j | 0 <= j < |leads|
          ensures requests[j] == RequestFor(leads[j], template)
          ensures records[j] == RecordFor(leads[j], template, campaignId, userId, send(j, requests[j]), clock(j))
        {
          if j < k {
            assert leads[..k][j] == leads[j];
            assert requests[j] == prev.requests[j] && records[j] == prev.records[j];
          }
        }
      }
      Pass(requests, records, prev.successCount + if send(k, req).Success? then 1 else 0)
  }

  /** The aggregate written to the campaign row after the loop. */
  datatype CampaignUpdate = CampaignUpdate(campaignId: string, sentCount: nat, status: string)

  datatype DispatchOutcome =
    | NoTemplate                                  // reported before anything is read
    | Aborted(error: string)                      // a read failed: nothing written
    | Finished(pass: Pass, update: CampaignUpdate)

  /** `handleSendCampaignEmails`. */
  function Dispatch(c: Campaign, db: StoreReads, send: (nat, OutreachEmail.SendRequest) -> Result<()>,
                    clock: nat -> string): (out: DispatchOutcome)
    ensures out.NoTemplate? <==> c.templateId.None? || c.templateId == Some("")
    ensures out.Aborted? <==>
      && !out.NoTemplate?
      && (db.joinRows.Failure? || db.template.Failure? || db.user.None?)
    ensures out.Aborted? ==>
      out.error == (if db.joinRows.Failure? then db.joinRows.error
                    else if db.template.Failure? then db.template.error
                    else NotLoggedIn)
    ensures out.Finished? ==>
      var leads := Present(db.joinRows.value.GetOr([]));
      && |out.pass.records| == |leads|
      && (forall k :: 0 <= k < |leads| ==>
            out.pass.records[k].leadId == leads[k].id
            && out.pass.records[k].campaignId == c.id
            && out.pass.records[k].userId == db.user.value
            && out.pass.records[k].subject == db.template.value.subject
            && out.pass.records[k].body == db.template.value.body
            && (out.pass.records[k].status == StatusSent <==> send(k, RequestFor(leads[k], db.template.value)).Success?)
            && (out.pass.records[k].status == StatusFailed <==> send(k, RequestFor(leads[k], db.template.value)).Failure?))
      && out.update == CampaignUpdate(c.id, Seqs.Count(out.pass.records, IsSent), StatusCompleted)
    ensures out.Finished? ==>
      out.pass == SendAll(Present(db.joinRows.value.GetOr([])), db.template.value, c.id, db.user.value, send, clock)
  {
    if c.templateId.None? || c.templateId == Some("") then NoTemplate
    else if db.joinRows.Failure? then Aborted(db.joinRows.error)
    else if db.template.Failure? then Aborted(db.template.error)
    else if db.user.None? then Aborted(NotLoggedIn)
    else
      var leads := Present(db.joinRows.value.GetOr([]));
      var pass := SendAll(leads, db.template.value, c.id, db.user.value, send, clock);
      Finished(pass, CampaignUpdate(c.id, pass.successCount, StatusCompleted))
  }

  /** The campaign row after the final update. */
  function ApplyUpdate(c: Campaign, u: CampaignUpdate): Campaign {
    c.(sentCount := u.sentCount, status := u.status)
  }

  /** After a finished pass the campaign is completed, whatever failed, its
      `sent_count` is at most its number of real leads, and the send button is gone. */
  lemma FinishedPassCompletesCampaign(c: Campaign, db: StoreReads,
                                      send: (nat, OutreachEmail.SendRequest) -> Result<()>, clock: nat -> string)
    requires Dispatch(c, db, send, clock).Finished?
    ensures var out := Dispatch(c, db, send, clock);
      && ApplyUpdate(c, out.update).status == StatusCompleted
      && ApplyUpdate(c, out.update).sentCount <= |db.joinRows.value.GetOr([])|
      && !CanSend(ApplyUpdate(c, out.update))
  {
    var out := Dispatch(c, db, send, clock);
    var rows := db.joinRows.value.GetOr([]);
    Seqs.CountDisjoint(out.pass.records, IsSent, (r: EmailRecord) => false, IsSent);
  }

  /** The pass does not look at the campaign's status or at earlier passes: dispatching a
      completed campaign again sends every email again and logs the same records again. */
  lemma RedispatchRepeats(c: Campaign, db: StoreReads,
                          send: (nat, OutreachEmail.SendRequest) -> Result<()>, clock: nat -> string)
    requires Dispatch(c, db, send, clock).Finished?
    ensures var out := Dispatch(c, db, send, clock);
      Dispatch(ApplyUpdate(c, out.update), db, send, clock) == out
  {
  }

  /** Sending through the outreach function: the invocation fails on any non-2xx status. */
  const InvokeError := "Edge Function returned a non-2xx status code"

  function InvokeOutreach(env: OutreachEmail.Env, smtp: OutreachEmail.SmtpMessage -> Result<()>)
    : (nat, OutreachEmail.SendRequest) -> Result<()>
  {
    (k, req) => if OutreachEmail.Handle(req, env, smtp).response.status == 200 then Success(()) else Failure(InvokeError)
  }

  /** A lead without a usable address (empty, the analysis sentinel, or badly shaped)
      is logged as failed, and the relay is never given a message for it. */
  lemma UnaddressableLeadFails(c: Campaign, db: StoreReads, env: OutreachEmail.Env,
                               smtp: OutreachEmail.SmtpMessage -> Result<()>, clock: nat -> string, k: nat)
    requires Dispatch(c, db, InvokeOutreach(env, smtp), clock).Finished?
    requires k < |Present(db.joinRows.value.GetOr([]))|
    requires !OutreachEmail.AcceptsAddress(Some(Present(db.joinRows.value.GetOr([]))[k].email))
    ensures Dispatch(c, db, InvokeOutreach(env, smtp), clock).pass.records[k].status == StatusFailed
    ensures OutreachEmail.Handle(RequestFor(Present(db.joinRows.value.GetOr([]))[k], db.template.value), env, smtp).steps == []
  {
  }

  // ---------------------------------------------------------------- deletion

  /** The two tables deletion touches. */
  datatype Store = Store(campaigns: seq<Campaign>, joins: seq<CampaignLead>)

  datatype StoreOp = DeleteJoinRowsOf(campaignId: string) | DeleteCampaignRow(id: string)

  /** `handleDeleteCampaign`: after confirmation, the join rows go first, then the campaign. */
  function DeleteCampaignOps(campaignId: string, confirmed: bool): seq<StoreOp> {
    if confirmed then [DeleteJoinRowsOf(campaignId), DeleteCampaignRow(campaignId)] else []
  }

  function Apply(s: Store, op: StoreOp): Store {
    match op
    case DeleteJoinRowsOf(id) => s.(joins := Seqs.Filter(s.joins, (j: CampaignLead) => j.campaignId != id))
    case DeleteCampaignRow(id) => s.(campaigns := Seqs.Filter(s.campaigns, (c: Campaign) => c.id != id))
  }

  function ApplyAll(s: Store, ops: seq<StoreOp>): Store
    decreases |ops|
  {
    if ops == [] then s else ApplyAll(Apply(s, ops[0]), ops[1..])
  }

  function CampaignIds(cs: seq<Campaign>): set<string> {
    set c | c in cs :: c.id
  }

  /** Referential integrity: every join row names an existing campaign. */
  predicate JoinsValid(s: Store) {
    forall i :: 0 <= i < |s.joins| ==> s.joins[i].campaignId in CampaignIds(s.campaigns)
  }

  /** Deleting in this order never leaves a join row pointing at a missing campaign,
      not even between the two steps; afterwards neither the campaign nor its join
      rows remain, and every other row is kept. */
  lemma DeleteCampaignKeepsIntegrity(s: Store, campaignId: string)
    requires JoinsValid(s)
    ensures var ops := DeleteCampaignOps(campaignId, true);
      && JoinsValid(ApplyAll(s, ops[..1]))
      && JoinsValid(ApplyAll(s, ops))
      && campaignId !in CampaignIds(ApplyAll(s, ops).campaigns)
      && (forall j :: j in ApplyAll(s, ops).joins ==> j.campaignId != campaignId)
      && (forall j :: j in s.joins && j.campaignId != campaignId ==> j in ApplyAll(s, ops).joins)
      && (forall c :: c in s.campaigns && c.id != campaignId ==> c in ApplyAll(s, ops).campaigns)
  {
    var ops := DeleteCampaignOps(campaignId, true);
    var s1 := ApplyAll(s, ops[..1]);
    var s2 := ApplyAll(s, ops);
    assert ops == [DeleteJoinRowsOf(campaignId), DeleteCampaignRow(campaignId)];
    assert ops[..1] == [DeleteJoinRowsOf(campaignId)];
    assert ops[..1][1..] == [] && ops[1..] == [DeleteCampaignRow(campaignId)] && ops[1..][1..] == [];
    var first := [DeleteJoinRowsOf(campaignId)];
    assert first[0] == DeleteJoinRowsOf(campaignId) && first[1..] == [];
    assert ApplyAll(s, first) == ApplyAll(Apply(s, first[0]), first[1..]);
    assert s1 == Apply(s, DeleteJoinRowsOf(campaignId));
    assert ApplyAll(Apply(s, ops[0]), ops[1..]) == Apply(s1, DeleteCampaignRow(campaignId));
    assert s2 == Apply(s1, DeleteCampaignRow(campaignId));
    forall i | 0 <= i < |s1.joins| ensures s1.joins[i].campaignId in CampaignIds(s1.campaigns) {
      assert s1.joins[i] in s.joins;
    }
    forall i | 0 <= i < |s2.joins| ensures s2.joins[i].campaignId in CampaignIds(s2.campaigns) {
      var j := s2.joins[i];
      assert j in s.joins && j.campaignId != campaignId;
      var k :| 0 <= k < |s.joins| && s.joins[k] == j;
      var c :| c in s.campaigns && c.id == j.campaignId;
      assert c in s2.campaigns;
    }
  }

  /** The opposite order would break integrity in between: with one campaign and one of
      its join rows, removing the campaign first leaves the join row dangling. */
  lemma CampaignFirstWouldDangle(c: Campaign, j: CampaignLead)
    requires j.campaignId == c.id
    ensures JoinsValid(Store([c], [j]))
    ensures !JoinsValid(Apply(Store([c], [j]), DeleteCampaignRow(c.id)))
  {
    var s := Store([c], [j]);
    assert c in s.campaigns;
    var s1 := Apply(s, DeleteCampaignRow(c.id));
    assert [c][1..] == [];
    assert s1.campaigns == [];
    assert CampaignIds(s1.campaigns) == {};
    assert s1.joins[0].campaignId !in CampaignIds(s1.campaigns);
  }
}

=== FILE: channel_analysis.dfy ===
/** The `analyze-youtube-channels` function: it builds the prompt from the URLs, calls
    the AI gateway, checks the reply's shape, strips Markdown code fences from the
    model's answer, cuts out the JSON array and parses it into leads. */
module ChannelAnalysis {
  import opened Wrappers
  import opened Text
  import opened Records

  // ------------------------------------------------------------------ prompt

  const PromptHeader := "Extract and analyze all YouTube channels from this text:\n\n"

  /** The user message: the header, then the URLs separated by blank lines. */
  function UserPrompt(urls: seq<string>): (prompt: string)
    ensures |PromptHeader| <= |prompt| && prompt[..|PromptHeader|] == PromptHeader
  {
    PromptHeader + Join(urls, "\n\n")
  }

  /** Every URL handed in appears in the prompt. */
  lemma PromptMentionsEveryUrl(urls: seq<string>, k: nat)
    requires k < |urls|
    ensures Occurs(UserPrompt(urls), urls[k])
  {
    JoinContains(urls, "\n\n", k);
    OccursWithin(PromptHeader, Join(urls, "\n\n"), [], urls[k]);
    assert PromptHeader + Join(urls, "\n\n") + [] == UserPrompt(urls);
  }

  // ------------------------------------------------------------ code fences

  const Fence := "```"

  function LowerAscii(c: char): char {
    if 'A' <= c <= 'Z' then (c as int + 32) as char else c
  }

  /** The text starts with a fence tagged `json` in any letter case (`/^```json/i`). */
  predicate StartsWithJsonFence(s: string) {
    && |s| >= 7 && s[..3] == Fence
    && LowerAscii(s[3]) == 'j' && LowerAscii(s[4]) == 's' && LowerAscii(s[5]) == 'o' && LowerAscii(s[6]) == 'n'
  }

  /** `replace(/^```json\s*\/i, '')`: a leading tagged fence goes, with all the white
      space after it; anything else is left alone. */
  function StripJsonFence(s: string): (r: string)
    ensures !StartsWithJsonFence(s) ==> r == s
    ensures StartsWithJsonFence(s) ==>
      && |r| <= |s| - 7 && r == s[|s| - |r|..] && AllSpace(s[7..|s| - |r|])
      && (r == [] || !IsSpace(r[0]))
  {
    if StartsWithJsonFence(s) then DropLeading(s, 7) else s
  }

  /** `replace(/^```\s*\/i, '')`: the same for an untagged fence. */
  function StripFence(s: string): (r: string)
    ensures !(Fence <= s) ==> r == s
    ensures Fence <= s ==>
      && |r| <= |s| - 3 && r == s[|s| - |r|..] && AllSpace(s[3..|s| - |r|])
      && (r == [] || !IsSpace(r[0]))
  {
    if Fence <= s then DropLeading(s, 3) else s
  }

  /** The text after its first `k` characters, with leading white space trimmed. */
  function DropLeading(s: string, k: nat): (r: string)
    requires k <= |s|
    ensures |r| <= |s| - k && r == s[|s| - |r|..] && AllSpace(s[k..|s| - |r|])
    ensures r == [] || !IsSpace(r[0])
  {
    var t := s[k..];
    TrimStartSuffix(t);
    var r := TrimStart(t);
    assert t[|t| - |r|..] == s[|s| - |r|..];
    assert t[..|t| - |r|] == s[k..|s| - |r|];
    r
  }

  /** `replace(/\s*```$/i, '')`: the leftmost match starts where the white space
      before the closing fence starts, so the fence goes with all of that space. */
  function StripTrailingFence(s: string): (r: string)
    ensures !EndsWith(s, Fence) ==> r == s
    ensures EndsWith(s, Fence) ==>
      && |r| <= |s| - 3 && r == s[..|r|] && AllSpace(s[|r|..|s| - 3])
      && (r == [] || !IsSpace(r[|r| - 1]))
  {
    if EndsWith(s, Fence) then
      var t := s[..|s| - 3];
      TrimEndPrefix(t);
      var r := TrimEnd(t);
      assert t[..|r|] == s[..|r|];
      assert t[|r|..] == s[|r|..|s| - 3];
      r
    else s
  }

  /** The model's answer with surrounding white space and Markdown fences removed. */
  function Clean(content: string): (r: string)
    ensures IsTrimmed(r)
    ensures |r| <= |content|
  {
    var t := Trim(content);
    var u := StripTrailingFence(StripFence(StripJsonFence(t)));
    Trim(u)
  }

  /** An answer without fences is only trimmed. */
  lemma CleanUnfenced(content: string)
    requires !(Fence <= Trim(content)) && !EndsWith(Trim(content), Fence)
    ensures Clean(content) == Trim(content)
  {
    var t := Trim(content);
    assert !StartsWithJsonFence(t);
    assert StripJsonFence(t) == t;
    assert StripFence(t) == t;
    assert StripTrailingFence(t) == t;
    TrimTrimmed(t);
  }

  lemma NoFenceAfter(b: string, tail: string)
    requires b != [] && !IsSpace(b[0]) && !(Fence <= b)
    requires |tail| >= 1 && IsSpace(tail[0])
    ensures !(Fence <= b + tail)
  {
    if |b| >= 3 {
      assert (b + tail)[..3] == b[..3];
    } else {
      assert (b + tail)[|b|] == tail[0];
    }
  }

  /** The closing fence on a line of its own is removed with the line break. */
  lemma StripClosingFence(body: string)
    requires body != [] && IsTrimmed(body) && !(Fence <= body)
    ensures !(Fence <= body + "\n```")
    ensures StripFence(body + "\n```") == body + "\n```"
    ensures StripTrailingFence(body + "\n```") == body
  {
    NoFenceAfter(body, "\n```");
    var t := body + "\n```";
    assert t[|t| - 3..] == Fence;
    assert t[..|t| - 3] == body + "\n";
    TrimEndSplit(body, "\n");
  }

  lemma StripOpeningFence(open: string, tagged: bool, rest: string)
    requires open == (if tagged then "```json" else "```")
    requires rest != [] && !IsSpace(rest[0]) && !(Fence <= rest)
    ensures StripFence(StripJsonFence(open + "\n" + rest)) == rest
  {
    var s := open + "\n" + rest;
    if tagged {
      assert s[..7] == open;
      assert s[..3] == Fence;
      assert StartsWithJsonFence(s);
      assert s[7..] == "\n" + rest;
      TrimStartSplit("\n", rest);
    } else {
      assert s[3] == '\n';
      assert !StartsWithJsonFence(s);
      assert s[..3] == Fence;
      assert s[3..] == "\n" + rest;
      TrimStartSplit("\n", rest);
    }
  }

  lemma FencedIsTrimmed(open: string, t: string)
    requires open != [] && open[0] == '`'
    requires t != [] && t[|t| - 1] == '`'
    ensures Trim(open + "\n" + t) == open + "\n" + t
  {
    var s := open + "\n" + t;
    assert s[0] == open[0];
    assert s[|s| - 1] == t[|t| - 1];
    TrimTrimmed(s);
  }

  /** A body inside a fence, tagged `json` or untagged, on lines of their own, comes
      out unchanged. */
  lemma CleanFenced(open: string, tagged: bool, body: string)
    requires open == (if tagged then "```json" else "```")
    requires body != [] && IsTrimmed(body) && !(Fence <= body)
    ensures Clean(open + "\n" + body + "\n```") == body
  {
    var t := body + "\n```";
    assert t[0] == body[0];
    var s := open + "\n" + t;
    assert open + "\n" + body + "\n```" == s;
    FencedIsTrimmed(open, t);
    StripClosingFence(body);
    StripOpeningFence(open, tagged, t);
    var w := StripFence(StripJsonFence(Trim(s)));
    assert w == t;
    assert StripTrailingFence(w) == body;
    TrimTrimmed(body);
  }

  // -------------------------------------------------------- the JSON array

  /** Some `[` comes before some `]`: `/\[[\s\S]*\]/` matches. */
  predicate HasBracketSpan(s: string) {
    exists i, j :: 0 <= i < j < |s| && s[i] == '[' && s[j] == ']'
  }

  /** The greedy match of `/\[[\s\S]*\]/`: from the first `[` to the last `]`; the
      whole text when there is no match. */
  function JsonSpan(s: string): (r: string)
    ensures !HasBracketSpan(s) ==> r == s
    ensures HasBracketSpan(s) ==>
      && |r| >= 2 && r[0] == '[' && r[|r| - 1] == ']'
      && exists i :: 0 <= i && i + |r| <= |s| && r == s[i..i + |r|] && '[' !in s[..i] && ']' !in s[i + |r|..]
  {
    match (FirstIndex(s, '['), LastIndex(s, ']'))
    case (Some(i), Some(j)) =>
      if i < j then
        assert s[i..j + 1][0] == s[i];
        s[i..j + 1]
      else
        assert forall a | 0 <= a < i :: s[a] == s[..i][a];
        assert forall b | j < b < |s| :: s[b] == s[j + 1..][b - j - 1];
        s
    case (None, _) => s
    case (_, None) => s
  }

  /** Cutting out the array twice changes nothing more. */
  lemma JsonSpanIdempotent(s: string)
    ensures JsonSpan(JsonSpan(s)) == JsonSpan(s)
  {
    var r := JsonSpan(s);
    if HasBracketSpan(s) {
      assert HasBracketSpan(r) by {
        assert 0 < |r| - 1 && r[0] == '[' && r[|r| - 1] == ']';
      }
      FirstIndexAt(r, '[', 0);
      assert LastIndex(r, ']') == Some(|r| - 1);
      assert r[0..|r|] == r;
    }
  }

  /** An answer fenced as JSON reaches the parser as if it had not been fenced. */
  lemma FencedAnswerParsesAsBody(open: string, tagged: bool, body: string)
    requires open == (if tagged then "```json" else "```")
    requires body != [] && IsTrimmed(body) && !(Fence <= body)
    ensures JsonSpan(Clean(open + "\n" + body + "\n```")) == JsonSpan(body)
  {
    CleanFenced(open, tagged, body);
  }

  // -------------------------------------------------------------- the handler

  datatype Message = Message(content: Option<string>)
  datatype Choice = Choice(message: Option<Message>)

  /** The parsed gateway reply, as far as the function looks into it. */
  datatype Payload = Payload(choices: Option<seq<Choice>>)

  /** `data.choices && data.choices[0] && data.choices[0].message`. */
  predicate HasExpectedStructure(p: Payload) {
    p.choices.Some? && |p.choices.value| > 0 && p.choices.value[0].message.Some?
  }

  /** The gateway's HTTP reply: whether the status is 2xx, the status, and reading the
      body text, which fails with the reader's message if the stream breaks. */
  datatype GatewayReply = GatewayReply(ok: bool, status: int, text: Result<string>)

  /** The message thrown on the way to the reply text: `fetch` rejected, or reading
      the body (on either branch of `response.ok`) threw. */
  function Thrown(call: Result<GatewayReply>): (m: Option<string>)
    ensures m.None? <==> call.Success? && call.value.text.Success?
    ensures call.Failure? ==> m == Some(call.error)
  {
    match call
    case Failure(e) => Some(e)
    case Success(reply) =>
      match reply.text
      case Failure(e) => Some(e)
      case Success(_) => None
  }

  datatype Body = Analyzed(leads: seq<AnalyzedLead>) | ErrorBody(message: string)

  datatype Response = Response(status: nat, body: Body)

  /** The response, and the user prompt sent to the gateway if it was called. */
  datatype Handled = Handled(response: Response, prompt: Option<string>)

  const KeyMissing := "LOVABLE_API_KEY not configured"
  const InvalidJson := "AI Gateway returned invalid JSON response"
  const MissingStructure := "AI Gateway response missing expected data structure"
  const ParseFailed := "Failed to parse AI analysis. Please try again."

  function GatewayError(status: int): string {
    "AI Gateway error: " + IntToString(status)
  }

  predicate KeyConfigured(apiKey: Option<string>) {
    apiKey.Some? && apiKey.value != ""
  }

  /** The leads read from the model's answer; `None` where the page's `try` block
      throws: no content, or the parser rejects the cleaned text. */
  function ParseAnswer(content: Option<string>, parseLeads: string -> Option<seq<AnalyzedLead>>): (leads: Option<seq<AnalyzedLead>>)
    ensures content.None? ==> leads.None?
    ensures content.Some? ==> leads == parseLeads(JsonSpan(Clean(content.value)))
  {
    match content
    case None => None
    case Some(c) => parseLeads(JsonSpan(Clean(c)))
  }

  function AnswerOf(p: Payload): Option<string>
    requires HasExpectedStructure(p)
  {
    p.choices.value[0].message.value.content
  }

  /** The request handler. `gateway` is the chat-completion call for a user prompt
      (`Failure` where `fetch` rejects), `parsePayload` and `parseLeads` stand for
      `JSON.parse` of the reply and of the answer, `None` where it throws. */
  function Handle(urls: seq<string>, apiKey: Option<string>, gateway: string -> Result<GatewayReply>,
                  parsePayload: string -> Option<Payload>,
                  parseLeads: string -> Option<seq<AnalyzedLead>>): (h: Handled)
    ensures h.response.status == 200 || h.response.status == 500
    ensures h.response.status == 200 <==> h.response.body.Analyzed?
    ensures h.prompt.Some? <==> KeyConfigured(apiKey)
    ensures h.prompt.Some? ==> h.prompt.value == UserPrompt(urls)
    ensures !KeyConfigured(apiKey) ==> h.response.body == ErrorBody(KeyMissing)
    ensures var call := gateway(UserPrompt(urls));
      && (KeyConfigured(apiKey) && Thrown(call).Some? ==> h.response.body == ErrorBody(Thrown(call).value))
      && (KeyConfigured(apiKey) && Thrown(call).None? && !call.value.ok ==>
            h.response.body == ErrorBody(GatewayError(call.value.status)))
      && ((KeyConfigured(apiKey) && Thrown(call).None? && call.value.ok
           && parsePayload(call.value.text.value).None?) ==> h.response.body == ErrorBody(InvalidJson))
      && ((KeyConfigured(apiKey) && Thrown(call).None? && call.value.ok
           && parsePayload(call.value.text.value).Some?
           && !HasExpectedStructure(parsePayload(call.value.text.value).value)) ==> h.response.body == ErrorBody(MissingStructure))
      && (h.response.status == 200 <==>
            && KeyConfigured(apiKey) && Thrown(call).None? && call.value.ok
            && parsePayload(call.value.text.value).Some?
            && HasExpectedStructure(parsePayload(call.value.text.value).value)
            && ParseAnswer(AnswerOf(parsePayload(call.value.text.value).value), parseLeads).Some?)
      && (h.response.status == 200 ==>
            h.response.body.leads == ParseAnswer(AnswerOf(parsePayload(call.value.text.value).value), parseLeads).value)
    ensures h.response.body.ErrorBody? ==>
      || h.response.body.message in {KeyMissing, InvalidJson, MissingStructure, ParseFailed}
      || (exists status :: h.response.body.message == GatewayError(status))
      || Thrown(gateway(UserPrompt(urls))) == Some(h.response.body.message)
  {
    if !KeyConfigured(apiKey) then Handled(Response(500, ErrorBody(KeyMissing)), None)
    else
      var prompt := UserPrompt(urls);
      var call := gateway(prompt);
      var fail := (message: string) => Handled(Response(500, ErrorBody(message)), Some(prompt));
      match Thrown(call)
      case Some(thrown) => fail(thrown)
      case None =>
        var reply := call.value;
        if !reply.ok then fail(GatewayError(reply.status))
        else match parsePayload(reply.text.value)
          case None => fail(InvalidJson)
          case Some(data) =>
            if !HasExpectedStructure(data) then fail(MissingStructure)
            else match ParseAnswer(AnswerOf(data), parseLeads)
              case None => fail(ParseFailed)
              case Some(leads) => Handled(Response(200, Analyzed(leads)), Some(prompt))
  }
}

=== FILE: dashboard.dfy ===
/** The Dashboard page: the headline counts, the conversion rate and its trend, and the
    relative timestamps of the recent-activity list. */
module Dashboard {
  import opened Wrappers
  import opened Text
  import Seqs
  import Analytics

  // ------------------------------------------------------------ headline stats

  /** An email that left the outbox: waiting, opened or replied. */
  predicate IsDelivered(s: string) {
    s == "sent" || s == "opened" || s == "replied"
  }

  datatype Stats = Stats(totalLeads: nat, emailsSent: nat, replies: nat, conversionRate: nat)

  /** `fetchDashboardData`: `leadsCount` is the exact lead count and `emails` the status
      column of the user's emails, each `None` when the read returned nothing. */
  function StatsOf(leadsCount: Option<nat>, emails: Option<seq<string>>): (st: Stats)
    ensures st.totalLeads == leadsCount.GetOr(0)
    ensures emails.None? ==> st.emailsSent == 0 && st.replies == 0
    ensures st.replies <= st.emailsSent
    ensures st.conversionRate <= 100
    ensures st.emailsSent == 0 ==> st.conversionRate == 0
    ensures st.emailsSent > 0 ==> st.conversionRate == Analytics.Percent(st.replies, st.emailsSent)
    ensures emails.Some? ==> st.emailsSent <= |emails.value|
  {
    var statuses := emails.GetOr([]);
    RepliesAreDelivered(statuses);
    var sent := Seqs.Count(statuses, IsDelivered);
    var replies := Seqs.Count(statuses, Analytics.IsRepliedStatus);
    Stats(leadsCount.GetOr(0), sent, replies, if sent > 0 then Analytics.Percent(replies, sent) else 0)
  }

  lemma RepliesAreDelivered(statuses: seq<string>)
    ensures Seqs.Count(statuses, Analytics.IsRepliedStatus) <= Seqs.Count(statuses, IsDelivered) <= |statuses|
  {
    var waitingOrOpened := (s: string) => s == "sent" || s == "opened";
    Seqs.CountDisjoint(statuses, waitingOrOpened, Analytics.IsRepliedStatus, IsDelivered);
  }

  /** "Emails Sent" on the dashboard is the sum of the Analytics page's sent, opened and
      replied counts, and "Replies" is its replied count. */
  lemma EmailsSentMatchesAnalytics(statuses: seq<string>)
    ensures StatsOf(None, Some(statuses)).emailsSent == Analytics.Delivered(Analytics.StatsOf(statuses))
    ensures StatsOf(None, Some(statuses)).replies == Analytics.StatsOf(statuses).replied
  {
    var waitingOrOpened := (s: string) => s == "sent" || s == "opened";
    Seqs.CountDisjoint(statuses, Analytics.IsSentStatus, Analytics.IsOpenedStatus, waitingOrOpened);
    Seqs.CountDisjoint(statuses, waitingOrOpened, Analytics.IsRepliedStatus, IsDelivered);
  }

  /** The "% conversion" line under Replies, shown only when something was sent. */
  function ConversionLabel(st: Stats): (line: Option<string>)
    ensures line.Some? <==> st.emailsSent > 0
    ensures line.Some? ==> EndsWith(line.value, "% conversion")
  {
    if st.emailsSent > 0 then Some(NatToString(st.conversionRate) + "% conversion") else None
  }

  datatype Trend = Up | Neutral | Down

  function TrendRank(t: Trend): nat {
    match t
    case Down => 0
    case Neutral => 1
    case Up => 2
  }

  /** The arrow on the Conversion Rate card. */
  function TrendOf(rate: nat): (t: Trend)
    ensures t == Up <==> rate > 10
    ensures t == Down <==> rate <= 5
  {
    if rate > 10 then Up else if rate > 5 then Neutral else Down
  }

  /** A higher conversion rate never shows a worse trend. */
  lemma TrendMonotone(a: nat, b: nat)
    requires a <= b
    ensures TrendRank(TrendOf(a)) <= TrendRank(TrendOf(b))
  {
  }

  // ---------------------------------------------------------- recent activity

  /** A row of the recent-emails query (ordered and limited by the store). */
  datatype EmailRow = EmailRow(id: string, status: string, sentAt: Option<string>, leadName: string)

  datatype Activity = Activity(id: string, leadName: string, action: string, timestamp: string)

  function ActivityOf(rows: Option<seq<EmailRow>>): (items: seq<Activity>)
    ensures rows.None? ==> items == []
    ensures rows.Some? ==> |items| == |rows.value|
    ensures rows.Some? ==> forall i :: 0 <= i < |items| ==>
      && items[i].id == rows.value[i].id && items[i].leadName == rows.value[i].leadName
      && items[i].action == rows.value[i].status
      && (items[i].timestamp == "" <==> rows.value[i].sentAt.None? || rows.value[i].sentAt == Some(""))
  {
    match rows
    case None => []
    case Some(rs) =>
      seq(|rs|, i requires 0 <= i < |rs| => Activity(rs[i].id, rs[i].leadName, rs[i].status, rs[i].sentAt.GetOr("")))
  }

  const MinuteMs := 60000
  const HourMs := 3600000
  const DayMs := 86400000

  /** How old a timestamp is, as `formatTimestamp` classifies it. `Invalid` is a string
      the date parser rejects: its age is NaN, which fails both comparisons. */
  datatype Age = NotAvailable | Invalid | Minutes(m: int) | Hours(h: int) | Days(d: int)

  /** `parse` stands for `new Date(ts).getTime()`, `None` for an invalid date; `now`
      is the clock reading in milliseconds. */
  function AgeOf(ts: string, now: int, parse: string -> Option<int>): (a: Age)
    ensures a == NotAvailable <==> ts == ""
    ensures a == Invalid <==> ts != "" && parse(ts).None?
    ensures a.Minutes? ==> var diff := now - parse(ts).value;
      diff < HourMs && a.m * MinuteMs <= diff < (a.m + 1) * MinuteMs
    ensures a.Hours? ==> var diff := now - parse(ts).value;
      HourMs <= diff < DayMs && a.h * HourMs <= diff < (a.h + 1) * HourMs
    ensures a.Days? ==> var diff := now - parse(ts).value;
      DayMs <= diff && a.d * DayMs <= diff < (a.d + 1) * DayMs
    ensures ts != "" && parse(ts).Some? ==> var diff := now - parse(ts).value;
      (a.Minutes? <==> diff < HourMs) && (a.Hours? <==> HourMs <= diff < DayMs) && (a.Days? <==> DayMs <= diff)
  {
    if ts == "" then NotAvailable
    else match parse(ts)
      case None => Invalid
      case Some(t) =>
        var diff := now - t;
        if diff / MinuteMs < 60 then Minutes(diff / MinuteMs)
        else if diff / HourMs < 24 then Hours(diff / HourMs)
        else Days(diff / DayMs)
  }

  function Render(a: Age): string {
    match a
    case NotAvailable => "N/A"
    case Invalid => "NaNd ago"
    case Minutes(m) => Ago(m, 'm')
    case Hours(h) => Ago(h, 'h')
    case Days(d) => Ago(d, 'd')
  }

  /** `${n}m ago` and its hour and day siblings. */
  function Ago(n: int, unit: char): string {
    IntToString(n) + [unit] + " ago"
  }

  lemma RenderEndsWithAgo(a: Age)
    ensures a == NotAvailable <==> Render(a) == "N/A"
    ensures a != NotAvailable ==> EndsWith(Render(a), " ago")
  {
    var r := Render(a);
    if a != NotAvailable {
      assert r[|r| - 4..] == " ago";
    }
  }

  function FormatTimestamp(ts: string, now: int, parse: string -> Option<int>): (r: string)
    ensures r == "N/A" <==> ts == ""
    ensures ts != "" ==> EndsWith(r, " ago")
  {
    RenderEndsWithAgo(AgeOf(ts, now, parse));
    Render(AgeOf(ts, now, parse))
  }

  /** The number in front of the unit reads back as the age it was rendered from. A
      send time in the future gives a negative age, printed with a leading minus. */
  lemma RenderedAgeReadsBack(a: Age, n: int, unit: char)
    requires (a == Minutes(n) && unit == 'm') || (a == Hours(n) && unit == 'h') || (a == Days(n) && unit == 'd')
    ensures exists digits :: && AllDigits(digits) && DigitsValue(digits) == (if n < 0 then -n else n)
                             && Render(a) == (if n < 0 then "-" else "") + digits + [unit] + " ago"
  {
    var m: nat := if n < 0 then -n else n;
    var sign := if n < 0 then "-" else "";
    NatToStringRoundTrip(m);
    assert IntToString(n) == sign + NatToString(m);
    assert Render(a) == Ago(n, unit);
  }

  /** An email with no send time shows "N/A". */
  lemma UnsentActivityIsNotAvailable(rows: seq<EmailRow>, i: nat, now: int, parse: string -> Option<int>)
    requires i < |rows| && rows[i].sentAt.None?
    ensures FormatTimestamp(ActivityOf(Some(rows))[i].timestamp, now, parse) == "N/A"
  {
  }
}

=== FILE: leads.dfy ===
/** The Leads page: turning pasted text into the list of lines sent for analysis,
    storing analysed leads, the with/without-email tabs, selection, and adding the
    selected leads to a campaign. */
module Leads {
  import opened Wrappers
  import opened Text
  import opened Records
  import Seqs
  import Campaigns

  // ------------------------------------------------------------ URL splitting

  /** Each line trimmed, blank lines dropped. */
  function NonBlankTrimmed(lines: seq<string>): (r: seq<string>)
    ensures |r| <= |lines|
    decreases |lines|
  {
    if lines == [] then []
    else
      var rest := NonBlankTrimmed(lines[1..]);
      var t := Trim(lines[0]);
      if t != "" then [t] + rest else rest
  }

  /** Every kept line is non-blank and has no white space at either end. */
  lemma {:induction false} NonBlankTrimmedClean(lines: seq<string>)
    ensures forall i :: 0 <= i < |NonBlankTrimmed(lines)| ==>
      NonBlankTrimmed(lines)[i] != "" && IsTrimmed(NonBlankTrimmed(lines)[i])
    decreases |lines|
  {
    if lines != [] {
      NonBlankTrimmedClean(lines[1..]);
      var rest := NonBlankTrimmed(lines[1..]);
      var t := Trim(lines[0]);
      if t != "" {
        assert NonBlankTrimmed(lines) == [t] + rest;
      } else {
        assert NonBlankTrimmed(lines) == rest;
      }
    }
  }

  /** Trimming introduces no character, so lines without a newline stay without one. */
  lemma {:induction false} NonBlankTrimmedNoNewline(lines: seq<string>)
    requires forall j :: 0 <= j < |lines| ==> '\n' !in lines[j]
    ensures forall i :: 0 <= i < |NonBlankTrimmed(lines)| ==> '\n' !in NonBlankTrimmed(lines)[i]
    decreases |lines|
  {
    if lines != [] {
      NonBlankTrimmedNoNewline(lines[1..]);
      TrimKeepsChars(lines[0]);
      assert '\n' !in lines[0];
    }
  }

  lemma {:induction false} NonBlankTrimmedAppend(a: seq<string>, b: seq<string>)
    ensures NonBlankTrimmed(a + b) == NonBlankTrimmed(a) + NonBlankTrimmed(b)
    decreases |a|
  {
    if a == [] {
      assert a + b == b;
    } else {
      assert (a + b)[0] == a[0];
      assert (a + b)[1..] == a[1..] + b;
      NonBlankTrimmedAppend(a[1..], b);
    }
  }

  /** `text.split('\n').map(trim).filter(nonEmpty)`. */
  function UrlLines(text: string): (urls: seq<string>)
    ensures forall i :: 0 <= i < |urls| ==> urls[i] != "" && IsTrimmed(urls[i]) && '\n' !in urls[i]
  {
    NonBlankTrimmedClean(Split(text, '\n'));
    NonBlankTrimmedNoNewline(Split(text, '\n'));
    NonBlankTrimmed(Split(text, '\n'))
  }

  /** A single line is sent as its own trim, unless it is blank. With `UrlLinesAppend`
      this pins down the URLs of every text. */
  lemma UrlLinesOneLine(s: string)
    requires '\n' !in s
    ensures UrlLines(s) == (if Trim(s) == "" then [] else [Trim(s)])
  {
    assert Split(s, '\n') == [s];
  }

  /** Lines keep their order: the URLs of two blocks of text joined by a newline are the
      URLs of the first block followed by those of the second. */
  lemma UrlLinesAppend(a: string, b: string)
    ensures UrlLines(a + "\n" + b) == UrlLines(a) + UrlLines(b)
  {
    SplitAppend(a, b, '\n');
    NonBlankTrimmedAppend(Split(a, '\n'), Split(b, '\n'));
  }

  lemma AllSpaceAround(a: string, c: char, b: string)
    ensures AllSpace(a + [c] + b) <==> AllSpace(a) && IsSpace(c) && AllSpace(b)
  {
    var s := a + [c] + b;
    if AllSpace(s) {
      assert forall k :: 0 <= k < |a| ==> a[k] == s[k];
      assert forall k :: 0 <= k < |b| ==> b[k] == s[|a| + 1 + k];
      assert s[|a|] == c;
    }
  }

  predicate AllBlank(lines: seq<string>) {
    forall j :: 0 <= j < |lines| ==> AllSpace(lines[j])
  }

  lemma AllBlankCons(x: string, rest: seq<string>)
    ensures AllBlank([x] + rest) <==> AllSpace(x) && AllBlank(rest)
  {
    var l := [x] + rest;
    assert l[0] == x;
    if AllBlank(l) {
      assert AllSpace(l[0]);
      forall j | 0 <= j < |rest| ensures AllSpace(rest[j]) {
        assert rest[j] == l[j + 1];
      }
    }
    if AllSpace(x) && AllBlank(rest) {
      forall j | 0 <= j < |l| ensures AllSpace(l[j]) {
        if j > 0 { assert l[j] == rest[j - 1]; }
      }
    }
  }

  /** A text splits into all-blank lines exactly when it is all white space. */
  lemma {:induction false} SplitAllSpace(s: string)
    ensures AllSpace(s) <==> AllBlank(Split(s, '\n'))
    decreases |s|
  {
    match FirstIndex(s, '\n')
    case None =>
      assert Split(s, '\n') == [s];
      assert [s][0] == s;
    case Some(i) =>
      assert Split(s, '\n') == [s[..i]] + Split(s[i + 1..], '\n');
      assert s == s[..i] + ['\n'] + s[i + 1..];
      AllSpaceAround(s[..i], '\n', s[i + 1..]);
      SplitAllSpace(s[i + 1..]);
      AllBlankCons(s[..i], Split(s[i + 1..], '\n'));
  }

  lemma {:induction false} NonBlankTrimmedEmpty(lines: seq<string>)
    ensures NonBlankTrimmed(lines) == [] <==> AllBlank(lines)
    decreases |lines|
  {
    if lines != [] {
      var t := Trim(lines[0]);
      var rest := NonBlankTrimmed(lines[1..]);
      assert NonBlankTrimmed(lines) == if t != "" then [t] + rest else rest;
      TrimEmptyIff(lines[0]);
      NonBlankTrimmedEmpty(lines[1..]);
      assert lines == [lines[0]] + lines[1..];
      AllBlankCons(lines[0], lines[1..]);
      if t != "" {
        assert NonBlankTrimmed(lines) != [];
        assert !AllBlank(lines);
      } else {
        assert NonBlankTrimmed(lines) == rest;
        assert AllBlank(lines) <==> AllBlank(lines[1..]);
      }
    }
  }

  /** The list sent for analysis is empty exactly when the pasted text is blank, which
      is also what the page's guard tests; so every analysis call gets a URL. */
  lemma UrlLinesEmptyIff(text: string)
    ensures UrlLines(text) == [] <==> Trim(text) == ""
  {
    TrimEmptyIff(text);
    SplitAllSpace(text);
    NonBlankTrimmedEmpty(Split(text, '\n'));
  }

  // -------------------------------------------------------- storing analysis

  /** The values the analysis uses when it could not date the last upload. */
  predicate IsLastPostedSentinel(s: string) {
    s == "" || s == "Unknown" || s == "recent estimate" || s == "N/A"
  }

  /** `last_posted` as stored: the ISO form of a parseable date, else `null`.
      `toIso` stands for `new Date(s)` followed by `toISOString`, `None` for an invalid date. */
  function NormalizeLastPosted(lastPosted: string, toIso: string -> Option<string>): (r: Option<string>)
    ensures r.Some? <==> !IsLastPostedSentinel(lastPosted) && toIso(lastPosted).Some?
    ensures r.Some? ==> r == toIso(lastPosted)
  {
    if IsLastPostedSentinel(lastPosted) then None else toIso(lastPosted)
  }

  /** A row inserted into `leads`. */
  datatype LeadInsert = LeadInsert(
    userId: string,
    name: string,
    email: string,
    channelName: string,
    platform: string,
    youtubeUrl: string,
    niche: string,
    lastPosted: Option<string>,
    abilityToPay: string,
    status: string)

  const StatusNew := "new"

  function ToInsert(a: AnalyzedLead, userId: string, toIso: string -> Option<string>): LeadInsert {
    LeadInsert(userId, a.name, a.email, a.channelName, a.platform, a.youtubeUrl, a.niche,
               NormalizeLastPosted(a.lastPosted, toIso), a.abilityToPay, StatusNew)
  }

  /** One insert row per analysed lead, in order, each new and owned by the user. */
  function InsertRows(analyzed: seq<AnalyzedLead>, userId: string, toIso: string -> Option<string>): (rows: seq<LeadInsert>)
    ensures |rows| == |analyzed|
    ensures forall i :: 0 <= i < |rows| ==>
      && rows[i].status == StatusNew && rows[i].userId == userId
      && rows[i].name == analyzed[i].name && rows[i].email == analyzed[i].email
      && rows[i].channelName == analyzed[i].channelName && rows[i].youtubeUrl == analyzed[i].youtubeUrl
      && rows[i].platform == analyzed[i].platform && rows[i].niche == analyzed[i].niche
      && rows[i].abilityToPay == analyzed[i].abilityToPay
      && rows[i].lastPosted == NormalizeLastPosted(analyzed[i].lastPosted, toIso)
    decreases |analyzed|
  {
    if analyzed == [] then []
    else [ToInsert(analyzed[0], userId, toIso)] + InsertRows(analyzed[1..], userId, toIso)
  }

  datatype ImportOutcome =
    | BlankInput                        // refused before calling the analysis
    | AnalysisFailed(message: string)
    | NoLeadsFound
    | ImportNotLoggedIn
    | InsertFailed(message: string)
    | Imported(rows: seq<LeadInsert>)

  const AnalysisFallback := "Failed to analyze channels"

  /** `handleAnalyzeChannels`: `analyze` is the channel-analysis function (its `leads`
      field may be missing), `user` the session, `insert` the batch insert. */
  function AnalyzeAndImport(text: string, analyze: seq<string> -> Result<Option<seq<AnalyzedLead>>>,
                            user: Option<string>, toIso: string -> Option<string>,
                            insert: seq<LeadInsert> -> Result<()>): (out: ImportOutcome)
    ensures out.BlankInput? <==> Trim(text) == ""
    ensures out.Imported? ==>
      && analyze(UrlLines(text)).Success?
      && analyze(UrlLines(text)).value.Some?
      && |out.rows| == |analyze(UrlLines(text)).value.value| > 0
      && user.Some?
      && (forall i :: 0 <= i < |out.rows| ==> out.rows[i].status == StatusNew && out.rows[i].userId == user.value)
      && insert(out.rows).Success?
    ensures out.Imported? ==>
      out.rows == InsertRows(analyze(UrlLines(text)).value.value, user.value, toIso)
    ensures var a := analyze(UrlLines(text));
      (&& Trim(text) != "" && a.Success? && a.value.Some? && |a.value.value| > 0 && user.Some?
       && insert(InsertRows(a.value.value, user.value, toIso)).Success?) ==> out.Imported?
    ensures !out.BlankInput? ==> |UrlLines(text)| > 0
  {
    UrlLinesEmptyIff(text);
    if Trim(text) == "" then BlankInput
    else
      match analyze(UrlLines(text))
      case Failure(message) => AnalysisFailed(if message == "" then AnalysisFallback else message)
      case Success(leads) =>
        if leads.None? || |leads.value| == 0 then NoLeadsFound
        else if user.None? then ImportNotLoggedIn
        else
          var rows := InsertRows(leads.value, user.value, toIso);
          match insert(rows)
          case Failure(message) => InsertFailed(if message == "" then AnalysisFallback else message)
          case Success(_) => Imported(rows)
  }

  // --------------------------------------------------------- the email tabs

  /** A lead shown under "with email". */
  predicate HasEmail(l: Lead) {
    l.email != "" && l.email != NoEmailFound && '@' in l.email
  }

  /** A lead shown under "without email", written as the page writes it. */
  predicate LacksEmail(l: Lead) {
    l.email == "" || l.email == NoEmailFound || '@' !in l.email
  }

  function WithEmail(leads: seq<Lead>): seq<Lead> {
    Seqs.Filter(leads, HasEmail)
  }

  function WithoutEmail(leads: seq<Lead>): seq<Lead> {
    Seqs.Filter(leads, LacksEmail)
  }

  /** The two tabs partition the leads: every lead is in exactly one of them, both keep
      the page's order, and together they hold each lead as often as the list does. */
  lemma EmailTabsPartition(leads: seq<Lead>)
    ensures forall l :: l in WithEmail(leads) ==> HasEmail(l) && !LacksEmail(l)
    ensures forall l :: l in WithoutEmail(leads) ==> LacksEmail(l) && !HasEmail(l)
    ensures forall l :: l in leads ==> l in WithEmail(leads) || l in WithoutEmail(leads)
    ensures |WithEmail(leads)| + |WithoutEmail(leads)| == |leads|
    ensures multiset(WithEmail(leads)) + multiset(WithoutEmail(leads)) == multiset(leads)
  {
    Seqs.FilterPartition(leads, HasEmail, LacksEmail);
    forall l | l in leads ensures l in WithEmail(leads) || l in WithoutEmail(leads) {
      var i :| 0 <= i < |leads| && leads[i] == l;
    }
  }

  /** The tabs are order-preserving: appending leads appends to each tab. */
  lemma EmailTabsAppend(a: seq<Lead>, b: seq<Lead>)
    ensures WithEmail(a + b) == WithEmail(a) + WithEmail(b)
    ensures WithoutEmail(a + b) == WithoutEmail(a) + WithoutEmail(b)
  {
    Seqs.FilterAppend(a, b, HasEmail);
    Seqs.FilterAppend(a, b, LacksEmail);
  }

  /** The sentinel has no `@`, so only the `@` test decides the tab. */
  lemma HasEmailIsAtSign(l: Lead)
    ensures HasEmail(l) <==> '@' in l.email
  {
    assert '@' !in NoEmailFound;
  }

  // --------------------------------------------------------------- selection

  /** The selection, a JavaScript `Set` of lead ids: no duplicates, insertion order. */
  function Remove(sel: seq<string>, id: string): (r: seq<string>)
    ensures id !in r
    ensures forall x :: x != id ==> (x in r <==> x in sel)
  {
    Seqs.Filter(sel, (x: string) => x != id)
  }

  lemma {:induction false} FilterKeepsNoDup(s: seq<string>, p: string -> bool)
    requires Seqs.NoDup(s)
    ensures Seqs.NoDup(Seqs.Filter(s, p))
    decreases |s|
  {
    if s != [] {
      assert Seqs.NoDup(s[1..]);
      FilterKeepsNoDup(s[1..], p);
      assert s[0] !in s[1..];
    }
  }

  /** `toggleLeadSelection`: flips one id, leaves every other id as it was. */
  function Toggle(sel: seq<string>, id: string): (r: seq<string>)
    requires Seqs.NoDup(sel)
    ensures Seqs.NoDup(r)
    ensures id in r <==> id !in sel
    ensures forall x :: x != id ==> (x in r <==> x in sel)
  {
    if id in sel then
      FilterKeepsNoDup(sel, (x: string) => x != id);
      Remove(sel, id)
    else sel + [id]
  }

  /** Toggling twice restores the selection as a set, and restores it exactly when the
      id was not selected. */
  lemma ToggleTwice(sel: seq<string>, id: string)
    requires Seqs.NoDup(sel)
    ensures forall x :: x in Toggle(Toggle(sel, id), id) <==> x in sel
    ensures id !in sel ==> Toggle(Toggle(sel, id), id) == sel
  {
    if id !in sel {
      var t := sel + [id];
      assert Toggle(sel, id) == t;
      RemoveLast(sel, id);
    }
  }

  lemma {:induction false} RemoveLast(sel: seq<string>, id: string)
    requires id !in sel
    ensures Remove(sel + [id], id) == sel
    decreases |sel|
  {
    var p := (x: string) => x != id;
    Seqs.FilterAppend(sel, [id], p);
    FilterAllKept(sel, p);
  }

  lemma {:induction false} FilterAllKept(s: seq<string>, p: string -> bool)
    requires forall i :: 0 <= i < |s| ==> p(s[i])
    ensures Seqs.Filter(s, p) == s
    decreases |s|
  {
    if s != [] {
      FilterAllKept(s[1..], p);
    }
  }

  /** Distinct values in first-occurrence order, as `new Set(values)` holds them. */
  function Dedup(xs: seq<string>): (r: seq<string>)
    ensures Seqs.NoDup(r)
    ensures forall x :: x in r <==> x in xs
    decreases |xs|
  {
    if xs == [] then []
    else
      var d := Dedup(xs[..|xs| - 1]);
      assert xs == xs[..|xs| - 1] + [xs[|xs| - 1]];
      if xs[|xs| - 1] in d then d else d + [xs[|xs| - 1]]
  }

  function Ids(leads: seq<Lead>): (ids: seq<string>)
    ensures |ids| == |leads| && forall i :: 0 <= i < |leads| ==> ids[i] == leads[i].id
  {
    seq(|leads|, i requires 0 <= i < |leads| => leads[i].id)
  }

  /** The select-all checkbox of a tab, with `leads` the tab's list: clears the
      selection when its size equals the number of leads listed, otherwise selects
      every listed lead. The selection is a set, so it holds no id twice. */
  function ToggleSelectAll(sel: seq<string>, leads: seq<Lead>): (r: seq<string>)
    requires Seqs.NoDup(sel)
    ensures |sel| == |leads| ==> r == []
    ensures |sel| != |leads| ==> Seqs.NoDup(r) && forall x :: x in r <==> exists l :: l in leads && l.id == x
  {
    if |sel| == |leads| then []
    else
      var r := Dedup(Ids(leads));
      assert forall x :: x in Ids(leads) <==> exists l :: l in leads && l.id == x by {
        forall x ensures x in Ids(leads) <==> exists l :: l in leads && l.id == x {
          if exists l :: l in leads && l.id == x {
            var l :| l in leads && l.id == x;
            var i :| 0 <= i < |leads| && leads[i] == l;
            assert Ids(leads)[i] == x;
          }
        }
      }
      r
  }

  /** Only sizes are compared: a selection of one lead that is not on the list still
      counts as "everything selected" and is cleared. */
  lemma SelectAllComparesSizesOnly(l: Lead, other: string)
    requires other != l.id
    ensures ToggleSelectAll([other], [l]) == []
    ensures l.id !in [other]
  {
  }

  // ------------------------------------------------------ adding to a campaign

  datatype MoveOutcome =
    | NoCampaignChosen
    | NothingSelected
    | MoveNotLoggedIn
    | MoveFailed(message: string)
    | Moved(rows: seq<CampaignLead>, totalLeads: nat)

  const DuplicateMessage := "Some leads are already in this campaign"
  const MoveFailedMessage := "Failed to add leads to campaign"

  function JoinRows(campaignId: string, sel: seq<string>, userId: string): (rows: seq<CampaignLead>)
    ensures |rows| == |sel|
    ensures forall i :: 0 <= i < |sel| ==> rows[i] == CampaignLead(campaignId, sel[i], userId)
  {
    seq(|sel|, i requires 0 <= i < |sel| => CampaignLead(campaignId, sel[i], userId))
  }

  /** `handleMoveToCampaign`: `insert` is the batch insert into `campaign_leads`, which
      the store refuses as a whole on a duplicate pair. */
  function MoveToCampaign(campaignId: string, sel: seq<string>, user: Option<string>,
                          insert: seq<CampaignLead> -> Result<()>): (m: MoveOutcome)
    ensures m.NoCampaignChosen? <==> campaignId == ""
    ensures m.NothingSelected? <==> campaignId != "" && sel == []
    ensures m.MoveNotLoggedIn? <==> campaignId != "" && sel != [] && user.None?
    ensures campaignId != "" && sel != [] && user.Some? && insert(JoinRows(campaignId, sel, user.value)).Success?
      ==> m.Moved?
    ensures m.Moved? ==>
      && user.Some? && |m.rows| == |sel| > 0 && m.totalLeads == |sel|
      && (forall i :: 0 <= i < |sel| ==> m.rows[i] == CampaignLead(campaignId, sel[i], user.value))
      && insert(m.rows).Success?
    ensures m.MoveFailed? ==>
      && user.Some? && insert(JoinRows(campaignId, sel, user.value)).Failure?
      && (m.message == DuplicateMessage <==> Occurs(insert(JoinRows(campaignId, sel, user.value)).error, "duplicate"))
  {
    if campaignId == "" then NoCampaignChosen
    else if sel == [] then NothingSelected
    else if user.None? then MoveNotLoggedIn
    else
      var rows := JoinRows(campaignId, sel, user.value);
      match insert(rows)
      case Failure(message) =>
        MoveFailed(if Occurs(message, "duplicate") then DuplicateMessage else MoveFailedMessage)
      case Success(_) => Moved(rows, |sel|)
  }

  /** The campaign row after a move: `total_leads` is overwritten with the batch size. */
  function ApplyMove(c: Campaign, m: MoveOutcome): (c': Campaign)
    requires m.Moved?
    ensures c'.totalLeads == m.totalLeads
    ensures c'.(totalLeads := c.totalLeads) == c
  {
    c.(totalLeads := m.totalLeads)
  }

  /** Two batches added to one campaign leave `total_leads` at the second batch's size,
      although the campaign now has the join rows of both. */
  lemma TotalLeadsIsLastBatch(c: Campaign, sel1: seq<string>, sel2: seq<string>, user: Option<string>,
                              insert: seq<CampaignLead> -> Result<()>)
    requires MoveToCampaign(c.id, sel1, user, insert).Moved?
    requires MoveToCampaign(c.id, sel2, user, insert).Moved?
    ensures var m1 := MoveToCampaign(c.id, sel1, user, insert);
      var m2 := MoveToCampaign(c.id, sel2, user, insert);
      && ApplyMove(ApplyMove(c, m1), m2).totalLeads == |sel2|
      && |m1.rows| + |m2.rows| == |sel1| + |sel2|
  {
  }

  /** Adding leads to a draft campaign makes the "Send Emails" button appear for it. */
  lemma MoveOffersSend(c: Campaign, sel: seq<string>, user: Option<string>,
                       insert: seq<CampaignLead> -> Result<()>)
    requires c.status == Campaigns.StatusDraft
    requires MoveToCampaign(c.id, sel, user, insert).Moved?
    ensures Campaigns.CanSend(ApplyMove(c, MoveToCampaign(c.id, sel, user, insert)))
  {
  }
}

=== FILE: outreach.dfy ===
/** The `send-outreach-email` serverless function: validate the recipient address,
    personalise subject and body, and hand one message to an SMTP relay. */
module OutreachEmail {
  import opened Wrappers
  import opened Text
  import Records

  /** The JSON body the function receives; absent or `null` fields are `None`. */
  datatype SendRequest = SendRequest(
    leadEmail: Option<string>,
    leadName: Option<string>,
    channelName: Option<string>,
    templateSubject: string,
    templateBody: string)

  // ------------------------------------------------------ address validation

  /** Every character matches the regular-expression class `[^\s@]`. */
  predicate NoSpaceOrAt(s: string) {
    forall i :: 0 <= i < |s| ==> !IsSpace(s[i]) && s[i] != '@'
  }

  /** The language of `^[^\s@]+@[^\s@]+\.[^\s@]+$`, written as the regular expression reads. */
  ghost predicate MatchesEmailPattern(e: string) {
    exists a, b, c ::
      && |a| > 0 && |b| > 0 && |c| > 0
      && NoSpaceOrAt(a) && NoSpaceOrAt(b) && NoSpaceOrAt(c)
      && e == a + "@" + b + "." + c
  }

  /** The domain has a dot that is neither its first nor its last character. */
  predicate HasInnerDot(domain: string) {
    |domain| >= 3 && '.' in domain[1..|domain| - 1]
  }

  /** The address check, computed: no white space, exactly one `@` with something
      before it, and an inner dot in the domain after it. */
  predicate ShapeCheck(e: string) {
    && (forall i :: 0 <= i < |e| ==> !IsSpace(e[i]))
    && match FirstIndex(e, '@')
       case None => false
       case Some(k) => k > 0 && '@' !in e[k + 1..] && HasInnerDot(e[k + 1..])
  }

  /** The computed check accepts exactly the language of the regular expression. */
  lemma EmailShapeIsPattern(e: string)
    ensures ShapeCheck(e) <==> MatchesEmailPattern(e)
  {
    if ShapeCheck(e) {
      ShapedMatchesPattern(e);
    }
    if MatchesEmailPattern(e) {
      var a, b, c :| && |a| > 0 && |b| > 0 && |c| > 0
                     && NoSpaceOrAt(a) && NoSpaceOrAt(b) && NoSpaceOrAt(c)
                     && e == a + "@" + b + "." + c;
      PatternIsShaped(e, a, b, c);
    }
  }

  lemma ShapedMatchesPattern(e: string)
    requires ShapeCheck(e)
    ensures MatchesEmailPattern(e)
  {
    var k := FirstIndex(e, '@').value;
    var d := e[k + 1..];
    var j :| 1 <= j < |d| - 1 && d[j] == '.';
    var a, b, c := e[..k], d[..j], d[j + 1..];
    assert e == a + "@" + b + "." + c;
    assert NoSpaceOrAt(a) by {
      forall i | 0 <= i < |a| ensures !IsSpace(a[i]) && a[i] != '@' {
        assert a[i] == e[i];
      }
    }
    assert NoSpaceOrAt(b) by {
      forall i | 0 <= i < |b| ensures !IsSpace(b[i]) && b[i] != '@' {
        assert b[i] == d[i] == e[k + 1 + i];
      }
    }
    assert NoSpaceOrAt(c) by {
      forall i | 0 <= i < |c| ensures !IsSpace(c[i]) && c[i] != '@' {
        assert c[i] == d[j + 1 + i] == e[k + 2 + j + i];
      }
    }
  }

  lemma PatternIsShaped(e: string, a: string, b: string, c: string)
    requires |a| > 0 && |b| > 0 && |c| > 0
    requires NoSpaceOrAt(a) && NoSpaceOrAt(b) && NoSpaceOrAt(c)
    requires e == a + "@" + b + "." + c
    ensures ShapeCheck(e)
  {
    var k := |a|;
    assert e[..k] == a;
    FirstIndexAt(e, '@', k);
    var d := e[k + 1..];
    assert d == b + "." + c;
    assert d[1..|d| - 1][|b| - 1] == '.';
    assert '@' !in d by {
      forall i | 0 <= i < |d| ensures d[i] != '@' {
        if i < |b| { assert d[i] == b[i]; }
        else if i > |b| { assert d[i] == c[i - |b| - 1]; }
      }
    }
    forall i | 0 <= i < |e| ensures !IsSpace(e[i]) {
      if i < k { assert e[i] == a[i]; }
      else if i > k { assert e[i] == d[i - k - 1]; }
    }
  }

  /** `emailRegex.test(e)`: true exactly for the strings the regular expression matches. */
  function IsEmailShaped(e: string): (ok: bool)
    ensures ok <==> MatchesEmailPattern(e)
  {
    EmailShapeIsPattern(e);
    ShapeCheck(e)
  }

  /** The guard of the handler: a missing or empty address, the analysis sentinel,
      or an address outside the regular expression's language is refused. */
  function AcceptsAddress(leadEmail: Option<string>): (ok: bool)
    ensures ok <==> && leadEmail.Some? && leadEmail.value != ""
                    && leadEmail.value != Records.NoEmailFound
                    && MatchesEmailPattern(leadEmail.value)
  {
    && leadEmail.Some?
    && leadEmail.value != ""
    && leadEmail.value != Records.NoEmailFound
    && IsEmailShaped(leadEmail.value)
  }

  /** Every accepted address has the documented shape. */
  lemma AcceptedAddressShape(leadEmail: Option<string>)
    requires AcceptsAddress(leadEmail)
    ensures var e := leadEmail.value;
      && (forall i :: 0 <= i < |e| ==> !IsSpace(e[i]))
      && (exists k :: 0 < k < |e| && e[k] == '@' && '@' !in e[..k] && '@' !in e[k + 1..] && HasInnerDot(e[k + 1..]))
  {
    var e := leadEmail.value;
    var k := FirstIndex(e, '@').value;
    assert 0 < k < |e| && e[k] == '@';
  }

  /** The sentinel contains spaces, so the shape check alone already refuses it. */
  lemma SentinelIsNotEmailShaped()
    ensures !IsEmailShaped(Records.NoEmailFound)
  {
    assert IsSpace(Records.NoEmailFound[2]);
  }

  // --------------------------------------------------------- personalisation

  const NameToken := "{name}"
  const ChannelToken := "{channel_name}"

  lemma TokensHaveNoDollar()
    ensures '$' !in NameToken && '$' !in ChannelToken
  {
  }

  /** JavaScript's `value || fallback` on an optional string: a missing or empty value
      gives the fallback. */
  function OrDefault(value: Option<string>, fallback: string): (r: string)
    requires fallback != ""
    ensures r != ""
    ensures value.Some? && value.value != "" ==> r == value.value
    ensures value.None? || value.value == "" ==> r == fallback
  {
    if value.Some? && value.value != "" then value.value else fallback
  }

  /** `leadName || 'there'`. */
  function NameOr(leadName: Option<string>): string {
    OrDefault(leadName, "there")
  }

  /** `channelName || 'your channel'`. */
  function ChannelOr(channelName: Option<string>): string {
    OrDefault(channelName, "your channel")
  }

  /** Replace every `{name}`, then every `{channel_name}` of the result. Each
      replacement string goes through `$` expansion, so a name like `$&` is not
      inserted as written. */
  function Personalize(text: string, leadName: Option<string>, channelName: Option<string>): (out: string)
    ensures !Occurs(text, NameToken) && !Occurs(text, ChannelToken) ==> out == text
  {
    ReplaceAll(ReplaceAll(text, NameToken, NameOr(leadName)), ChannelToken, ChannelOr(channelName))
  }

  /** A lead whose name and channel are the tokens themselves gets the text back:
      each substitution is undone by its own token. */
  lemma PersonalizeWithTokensIsIdentity(text: string)
    ensures Personalize(text, Some(NameToken), Some(ChannelToken)) == text
  {
    TokensHaveNoDollar();
    ReplaceAllSelf(text, NameToken);
    ReplaceAllSelf(text, ChannelToken);
  }

  // The lemmas below take the template text as a parameter fixed by `requires`, which
  // keeps the verifier from evaluating the replacement on the literal character by character.

  /** `$&` in a name stands for the matched token and `$$` for one dollar sign, so a
      lead named `$&` is greeted with `{name}` and one named `Cash$$` with `Cash$`. */
  lemma DollarAmpersandName(t: string, amp: string, channelName: Option<string>)
    requires t == NameToken && amp == "$&"
    ensures Personalize(t, Some(amp), channelName) == NameToken
  {
    ReplaceAllWhole(NameToken, amp);
    assert amp == ['$', '&'] + [];
    SubstitutePattern('&', [], NameToken, [], []);
    AbsentChar(NameToken, ChannelToken, 'c');
  }

  lemma DoubleDollarName(t: string, cash: string, channelName: Option<string>)
    requires t == NameToken && cash == "Cash$$"
    ensures Personalize(t, Some(cash), channelName) == "Cash$"
  {
    ReplaceAllWhole(NameToken, cash);
    assert cash == "Cash" + (['$', '$'] + []);
    SubstitutePlain("Cash", ['$', '$'] + [], NameToken, [], []);
    SubstitutePattern('$', [], NameToken, [], []);
    assert "Cash" + ("$" + []) == "Cash$";
    AbsentChar("Cash$", ChannelToken, '{');
  }

  /** Rendering is sequential: `{{name}}` keeps its outer braces around the expanded
      name, and only then is the result searched for `{channel_name}`. */
  lemma DoubleBracedName(t: string, leadName: Option<string>, channelName: Option<string>)
    requires t == "{{name}}"
    requires !Occurs("{" + Substitute(NameOr(leadName), NameToken, "{", "}") + "}", ChannelToken)
    ensures Personalize(t, leadName, channelName) == "{" + Substitute(NameOr(leadName), NameToken, "{", "}") + "}"
  {
    var n, p := NameOr(leadName), NameToken;
    assert t == ['{'] + (p + "}");
    assert !(p <= t) by { assert p[1] != t[1]; }
    ReplaceFromCons([], '{', p + "}", p, n);
    assert [] + ['{'] == "{";
    TokenThenTail("{", p, "}", n);
    ReplaceFromNoMatchBefore("{" + p, "}", [], p, n);
    assert "}" + [] == "}";
    var m := Substitute(n, p, "{", "}");
    assert ReplaceFrom("{" + p, "}", p, n) == "}";
    Concat3("{", m, "}");
  }

  /** `{{name}}` for a lead called Ana renders as `{Ana}`. */
  lemma DoubleBracedAna(t: string, channelName: Option<string>)
    requires t == "{{name}}"
    ensures Personalize(t, Some("Ana"), channelName) == "{Ana}"
  {
    AbsentChar("Ana", "$", '$');
    AbsentChar("{Ana}", ChannelToken, 'c');
    DoubleBracedName(t, Some("Ana"), channelName);
  }

  /** The other placeholders the template form advertises are never substituted. */
  lemma OtherTokensUntouched(t: string, leadName: Option<string>, channelName: Option<string>)
    requires t == "{email}" || t == "{platform}" || t == "{{email}} {{platform}}"
    ensures Personalize(t, leadName, channelName) == t
  {
    AbsentChar(t, NameToken, 'n');
    AbsentChar(t, ChannelToken, 'c');
  }

  /** Because `{name}` goes first, a name that is itself `{channel_name}` is then
      replaced by the (expanded) channel. */
  lemma NameSubstitutedBeforeChannel(t: string, channel: string)
    requires t == NameToken && channel != ""
    ensures Personalize(t, Some(ChannelToken), Some(channel)) == Substitute(channel, ChannelToken, [], [])
    ensures '$' !in channel ==> Personalize(t, Some(ChannelToken), Some(channel)) == channel
  {
    TokensHaveNoDollar();
    assert NameOr(Some(ChannelToken)) == ChannelToken;
    assert ChannelOr(Some(channel)) == channel;
    ReplaceAllWhole(NameToken, ChannelToken);
    var x := ReplaceAll(t, NameToken, ChannelToken);
    assert x == ChannelToken;
    ReplaceAllWhole(ChannelToken, channel);
    assert Personalize(t, Some(ChannelToken), Some(channel)) == ReplaceAll(x, ChannelToken, channel);
  }

  /** A template holding each token once, around brace-free text, gets each token
      replaced in place by its expansion: `Hi {name}, love {channel_name}` becomes
      `Hi Ana, love AnaTV` for Ana of AnaTV and `Hi there, love your channel` for a lead
      with neither field. */
  lemma BothTokensInPlace(hi: string, love: string, leadName: Option<string>, channelName: Option<string>)
    requires '{' !in hi && '{' !in love
    requires '{' !in Substitute(NameOr(leadName), NameToken, hi, love + ChannelToken)
    ensures var n := Substitute(NameOr(leadName), NameToken, hi, love + ChannelToken);
      Personalize(hi + NameToken + love + ChannelToken, leadName, channelName)
        == hi + n + love + Substitute(ChannelOr(channelName), ChannelToken, hi + n + love, [])
    ensures '$' !in NameOr(leadName) && '$' !in ChannelOr(channelName) ==>
      Personalize(hi + NameToken + love + ChannelToken, leadName, channelName)
        == hi + NameOr(leadName) + love + ChannelOr(channelName)
  {
    var p, q := NameToken, ChannelToken;
    assert p[0] == q[0] && p[1] != q[1] && p[0] !in q[1..];
    TwoTokensInPlace(hi, love, p, q, NameOr(leadName), ChannelOr(channelName));
  }

  /** Replacing `p` then `q` in `hi + p + love + q`, where the two tokens start with the
      same character that appears nowhere else. */
  lemma TwoTokensInPlace(hi: string, love: string, p: string, q: string, n: string, c: string)
    requires |p| > 1 && |q| > 1 && p[0] == q[0] && p[1] != q[1]
    requires p[0] !in hi && p[0] !in love && p[0] !in q[1..]
    requires p[0] !in Substitute(n, p, hi, love + q)
    ensures var n' := Substitute(n, p, hi, love + q);
      ReplaceAll(ReplaceAll(hi + p + love + q, p, n), q, c) == hi + n' + love + Substitute(c, q, hi + n' + love, [])
  {
    var n' := Substitute(n, p, hi, love + q);
    FirstTokenReplaced(hi, love, p, q, n);
    SecondTokenReplaced(hi + n' + love, q, c);
  }

  lemma FirstTokenReplaced(hi: string, love: string, p: string, q: string, n: string)
    requires |p| > 1 && |q| > 1 && p[0] == q[0] && p[1] != q[1]
    requires p[0] !in hi && p[0] !in love && p[0] !in q[1..]
    ensures ReplaceAll(hi + p + love + q, p, n) == hi + Substitute(n, p, hi, love + q) + love + q
  {
    var rest := love + q;
    assert hi + p + love + q == hi + (p + rest);
    ReplaceFromNoMatchBefore([], hi, p + rest, p, n);
    assert [] + hi == hi;
    TokenThenTail(hi, p, rest, n);
    TailAfterToken(hi + p, p, q, love, n);
    Concat4(hi, Substitute(n, p, hi, rest), love, q);
  }

  /** An occurrence at the front is replaced by its expansion. */
  lemma TokenThenTail(pre: string, p: string, rest: string, n: string)
    requires |p| > 0
    ensures ReplaceFrom(pre, p + rest, p, n) == Substitute(n, p, pre, rest) + ReplaceFrom(pre + p, rest, p, n)
  {
    assert MatchAt(p + rest, p, 0) by { assert (p + rest)[0..|p|] == p; }
    ReplaceFromPrefix(pre, p + rest, p, n);
    assert (p + rest)[|p|..] == rest;
  }

  /** Between the two tokens nothing changes, and neither does the second token. */
  lemma TailAfterToken(pre: string, p: string, q: string, love: string, n: string)
    requires |p| > 1 && |q| > 1 && p[0] == q[0] && p[1] != q[1]
    requires p[0] !in love && p[0] !in q[1..]
    ensures ReplaceFrom(pre, love + q, p, n) == love + q
  {
    ReplaceFromNoMatchBefore(pre, love, q, p, n);
    OtherTokenKept(pre + love, p, q, n);
  }

  /** A token that differs from `p` in its second character, and holds `p`'s first
      character only at its start, is not touched by replacing `p`. */
  lemma OtherTokenKept(pre: string, p: string, q: string, n: string)
    requires |p| > 1 && |q| > 1 && p[0] == q[0] && p[1] != q[1] && p[0] !in q[1..]
    ensures ReplaceFrom(pre, q, p, n) == q
  {
    assert q == [q[0]] + q[1..];
    assert !(p <= q) by { assert p[1] != q[1]; }
    ReplaceFromCons(pre, q[0], q[1..], p, n);
    ReplaceFromNoMatchBefore(pre + [q[0]], q[1..], [], p, n);
    assert q[1..] + [] == q[1..];
  }

  lemma SecondTokenReplaced(u: string, q: string, c: string)
    requires |q| > 0 && q[0] !in u
    ensures ReplaceAll(u + q, q, c) == u + Substitute(c, q, u, [])
  {
    ReplaceFromNoMatchBefore([], u, q, q, c);
    assert [] + u == u;
    assert MatchAt(q, q, 0) by { assert q[0..|q|] == q; }
    ReplaceFromPrefix(u, q, q, c);
    assert q[|q|..] == [];
  }

  // ------------------------------------------------------------------ handler

  /** The two environment variables that hold the relay's login. */
  datatype Env = Env(gmailUser: Option<string>, gmailAppPassword: Option<string>)

  datatype SmtpMessage = SmtpMessage(from: string, to: string, subject: string, content: string)

  /** Externally visible actions, in the order the handler performs them. */
  datatype Step = ReadCredentials | BuildClient | Send(message: SmtpMessage) | CloseClient

  datatype ResponseBody =
    | EmailSent
    | InvalidEmail(providedEmail: Option<string>)
    | ServerError(message: string)

  datatype Response = Response(status: nat, body: ResponseBody)

  /** The response together with what the handler did to produce it. */
  datatype Handled = Handled(response: Response, steps: seq<Step>)

  const InvalidEmailStatus := 400
  const CredentialsMissing := "Gmail credentials not configured. Please set GMAIL_USER and GMAIL_APP_PASSWORD."

  function PersonalizedMessage(req: SendRequest, from: string): (m: SmtpMessage)
    requires req.leadEmail.Some?
  {
    SmtpMessage(from, req.leadEmail.value,
      Personalize(req.templateSubject, req.leadName, req.channelName),
      Personalize(req.templateBody, req.leadName, req.channelName))
  }

  /** One request: `smtp` is the relay, answering a message with success or an error message. */
  function Handle(req: SendRequest, env: Env, smtp: SmtpMessage -> Result<()>): (h: Handled)
    ensures h.response.status == InvalidEmailStatus <==> !AcceptsAddress(req.leadEmail)
    ensures !AcceptsAddress(req.leadEmail) ==>
      h.steps == [] && h.response.body == InvalidEmail(req.leadEmail)
    ensures h.response.status == 200 <==>
      && AcceptsAddress(req.leadEmail)
      && env.gmailUser.Some? && env.gmailUser.value != ""
      && env.gmailAppPassword.Some? && env.gmailAppPassword.value != ""
      && smtp(PersonalizedMessage(req, env.gmailUser.value)).Success?
    ensures h.response.status in {200, 400, 500}
    ensures forall i :: 0 <= i < |h.steps| && h.steps[i].Send? ==>
      && i == 2 && h.steps[..2] == [ReadCredentials, BuildClient]
      && h.steps[i].message.to == req.leadEmail.value
      && h.steps[i].message.subject == Personalize(req.templateSubject, req.leadName, req.channelName)
      && h.steps[i].message.content == Personalize(req.templateBody, req.leadName, req.channelName)
  {
    if !AcceptsAddress(req.leadEmail) then
      Handled(Response(InvalidEmailStatus, InvalidEmail(req.leadEmail)), [])
    else if || env.gmailUser.None? || env.gmailUser.value == ""
            || env.gmailAppPassword.None? || env.gmailAppPassword.value == "" then
      Handled(Response(500, ServerError(CredentialsMissing)), [ReadCredentials])
    else
      var message := PersonalizedMessage(req, env.gmailUser.value);
      match smtp(message)
      case Failure(err) =>
        Handled(Response(500, ServerError(err)), [ReadCredentials, BuildClient, Send(message)])
      case Success(_) =>
        Handled(Response(200, EmailSent), [ReadCredentials, BuildClient, Send(message), CloseClient])
  }
}

=== FILE: records.dfy ===
/** Rows of the hosted store's tables, with the columns the pages read and write. */
module Records {
  import opened Wrappers

  /** The value the analysis model writes when it found no address. */
  const NoEmailFound := "No email found"

  /** A row of `leads`. */
  datatype Lead = Lead(
    id: string,
    userId: string,
    name: string,
    email: string,
    channelName: Option<string>,
    platform: Option<string>,
    youtubeUrl: Option<string>,
    niche: Option<string>,
    lastPosted: Option<string>,
    abilityToPay: Option<string>,
    status: string)

  /** A row of `templates`. */
  datatype Template = Template(id: string, userId: string, name: string, subject: string, body: string)

  /** A row of `campaigns`; a missing counter reads as 0. */
  datatype Campaign = Campaign(
    id: string,
    userId: string,
    name: string,
    status: string,
    templateId: Option<string>,
    totalLeads: int,
    sentCount: int)

  /** A row of `campaign_leads`, the join of a campaign with a lead. */
  datatype CampaignLead = CampaignLead(campaignId: string, leadId: string, userId: string)

  /** A row of `emails`: the log of one send attempt. */
  datatype EmailRecord = EmailRecord(
    userId: string,
    leadId: string,
    campaignId: string,
    templateId: string,
    subject: string,
    body: string,
    status: string,
    sentAt: Option<string>,
    errorMessage: Option<string>)

  /** One lead as the channel-analysis function returns it: every field a string. */
  datatype AnalyzedLead = AnalyzedLead(
    name: string,
    email: string,
    channelName: string,
    platform: string,
    youtubeUrl: string,
    niche: string,
    lastPosted: string,
    abilityToPay: string)
}

=== FILE: seqs.dfy ===
/** Order-preserving filtering and counting over sequences, as JavaScript's
    `Array.prototype.filter(...)` and `.filter(...).length` do. */
module Seqs {

  /** The elements of `s` that satisfy `p`, in their original order. */
  function Filter<T>(s: seq<T>, p: T -> bool): (r: seq<T>)
    ensures |r| <= |s|
    ensures forall i :: 0 <= i < |r| ==> r[i] in s && p(r[i])
    ensures forall i :: 0 <= i < |s| && p(s[i]) ==> s[i] in r
    decreases |s|
  {
    if s == [] then []
    else if p(s[0]) then [s[0]] + Filter(s[1..], p)
    else Filter(s[1..], p)
  }

  /** The number of elements of `s` that satisfy `p`. */
  function Count<T>(s: seq<T>, p: T -> bool): nat {
    |Filter(s, p)|
  }

  /** Filtering a concatenation filters each part: relative order is kept. */
  lemma {:induction false} FilterAppend<T>(a: seq<T>, b: seq<T>, p: T -> bool)
    ensures Filter(a + b, p) == Filter(a, p) + Filter(b, p)
    decreases |a|
  {
    if a == [] {
      assert a + b == b;
    } else {
      assert (a + b)[1..] == a[1..] + b;
      FilterAppend(a[1..], b, p);
    }
  }

  /** A predicate and its negation split a sequence: together the two filters hold
      every element exactly as often as the input does. */
  lemma {:induction false} FilterPartition<T>(s: seq<T>, p: T -> bool, q: T -> bool)
    requires forall x :: q(x) <==> !p(x)
    ensures |Filter(s, p)| + |Filter(s, q)| == |s|
    ensures multiset(Filter(s, p)) + multiset(Filter(s, q)) == multiset(s)
    decreases |s|
  {
    if s != [] {
      FilterPartition(s[1..], p, q);
      assert s == [s[0]] + s[1..];
      assert multiset(s) == multiset{s[0]} + multiset(s[1..]);
    }
  }

  /** Counts of two predicates that never hold together add up to the count of
      their disjunction, and never exceed the length. */
  lemma {:induction false} CountDisjoint<T>(s: seq<T>, p: T -> bool, q: T -> bool, pq: T -> bool)
    requires forall x :: !(p(x) && q(x))
    requires forall x :: pq(x) <==> p(x) || q(x)
    ensures Count(s, p) + Count(s, q) == Count(s, pq)
    ensures Count(s, pq) <= |s|
    decreases |s|
  {
    if s != [] {
      CountDisjoint(s[1..], p, q, pq);
    }
  }

  /** Counting distributes over concatenation. */
  lemma CountAppend<T>(a: seq<T>, b: seq<T>, p: T -> bool)
    ensures Count(a + b, p) == Count(a, p) + Count(b, p)
  {
    FilterAppend(a, b, p);
  }

  /** No duplicates: the sequence can stand for a JavaScript `Set` in insertion order. */
  predicate NoDup<T(==)>(s: seq<T>) {
    forall i, j :: 0 <= i < j < |s| ==> s[i] != s[j]
  }
}

=== FILE: text.dfy ===
/** String operations with JavaScript's meaning: `trim`, the regular-expression class
    `\s`, global replacement of a literal pattern with `$` patterns expanded in the
    replacement, `split` on one character, `join`, and the
    decimal rendering of an integer in a template literal. */
module Text {
  import opened Wrappers

  /** ECMAScript white space and line terminators: what `trim` removes and `\s` matches. */
  predicate IsSpace(c: char) {
    || c == ' ' || c == '\t' || c == '\n' || c == '\r' || c == '\U{000B}' || c == '\U{000C}'
    || c == '\U{00A0}' || c == '\U{1680}' || ('\U{2000}' <= c <= '\U{200A}')
    || c == '\U{2028}' || c == '\U{2029}' || c == '\U{202F}' || c == '\U{205F}'
    || c == '\U{3000}' || c == '\U{FEFF}'
  }

  predicate AllSpace(s: string) {
    forall i :: 0 <= i < |s| ==> IsSpace(s[i])
  }

  /** `s` has no white space at either end. */
  predicate IsTrimmed(s: string) {
    s == [] || (!IsSpace(s[0]) && !IsSpace(s[|s| - 1]))
  }

  predicate EndsWith(s: string, suffix: string) {
    |suffix| <= |s| && s[|s| - |suffix|..] == suffix
  }

  // ---------------------------------------------------------------- trimming

  /** `trimStart`: drops the longest all-white-space prefix. */
  function TrimStart(s: string): (r: string)
    ensures |r| <= |s|
    ensures r == [] || !IsSpace(r[0])
    decreases |s|
  {
    if s != [] && IsSpace(s[0]) then TrimStart(s[1..]) else s
  }

  /** What `trimStart` drops is white space and what it keeps is a suffix of the input. */
  lemma {:induction false} TrimStartSuffix(s: string)
    ensures var r := TrimStart(s); r == s[|s| - |r|..] && AllSpace(s[..|s| - |r|])
    decreases |s|
  {
    if s != [] && IsSpace(s[0]) {
      var t := s[1..];
      TrimStartSuffix(t);
      var r := TrimStart(t);
      assert TrimStart(s) == r;
      assert t[|t| - |r|..] == s[|s| - |r|..];
      forall i | 0 <= i < |s| - |r| ensures IsSpace(s[i]) {
        if i > 0 {
          assert s[i] == t[..|t| - |r|][i - 1];
        }
      }
    } else {
      assert s[|s| - |s|..] == s;
    }
  }

  /** `trimEnd`: drops the longest all-white-space suffix. */
  function TrimEnd(s: string): (r: string)
    ensures |r| <= |s|
    ensures r == [] || !IsSpace(r[|r| - 1])
    decreases |s|
  {
    if s != [] && IsSpace(s[|s| - 1]) then TrimEnd(s[..|s| - 1]) else s
  }

  /** What `trimEnd` drops is white space and what it keeps is a prefix of the input. */
  lemma {:induction false} TrimEndPrefix(s: string)
    ensures var r := TrimEnd(s); r == s[..|r|] && AllSpace(s[|r|..])
    decreases |s|
  {
    if s != [] && IsSpace(s[|s| - 1]) {
      var t := s[..|s| - 1];
      TrimEndPrefix(t);
      var r := TrimEnd(t);
      assert TrimEnd(s) == r;
      assert t[..|r|] == s[..|r|];
      forall i | |r| <= i < |s| ensures IsSpace(s[i]) {
        if i < |s| - 1 {
          assert s[i] == t[|r|..][i - |r|];
        }
      }
    } else {
      assert s[..|s|] == s;
    }
  }

  /** `trim`: white space removed from both ends. */
  function Trim(s: string): (r: string)
    ensures IsTrimmed(r)
    ensures |r| <= |s|
  {
    var t := TrimStart(s);
    TrimEndPrefix(t);
    TrimEnd(t)
  }

  /** The trimmed string is the slice of the input that starts where the leading white
      space ends, with only white space cut on either side. */
  lemma TrimIsSlice(s: string)
    ensures var a := |s| - |TrimStart(s)|; var r := Trim(s);
      && a + |r| <= |s| && r == s[a..a + |r|] && AllSpace(s[..a]) && AllSpace(s[a + |r|..])
  {
    var t := TrimStart(s);
    TrimStartSuffix(s);
    var a := |s| - |t|;
    var r := TrimEnd(t);
    TrimEndPrefix(t);
    SliceOfSuffix(s, a, |r|);
    assert AllSpace(t[|r|..]);
  }

  lemma SliceOfSuffix(s: string, a: nat, m: nat)
    requires a + m <= |s|
    ensures s[a..][..m] == s[a..a + m]
    ensures s[a..][m..] == s[a + m..]
  {
  }

  /** A suffix or a prefix of `s` holds only characters of `s`. */
  lemma SuffixChars(s: string, t: string)
    requires |t| <= |s| && t == s[|s| - |t|..]
    ensures forall c :: c in t ==> c in s
  {
    forall c | c in t ensures c in s {
      var k :| 0 <= k < |t| && t[k] == c;
      assert s[|s| - |t| + k] == c;
    }
  }

  lemma PrefixChars(s: string, t: string)
    requires |t| <= |s| && t == s[..|t|]
    ensures forall c :: c in t ==> c in s
  {
    forall c | c in t ensures c in s {
      var k :| 0 <= k < |t| && t[k] == c;
      assert s[k] == c;
    }
  }

  /** Every character of the trimmed string comes from the input. */
  lemma TrimKeepsChars(s: string)
    ensures forall c :: c in Trim(s) ==> c in s
  {
    var t := TrimStart(s);
    TrimStartSuffix(s);
    SuffixChars(s, t);
    TrimEndPrefix(t);
    PrefixChars(t, TrimEnd(t));
  }

  /** Trimming yields the empty string exactly when the input is all white space. */
  lemma TrimEmptyIff(s: string)
    ensures Trim(s) == [] <==> AllSpace(s)
  {
    if AllSpace(s) {
      TrimStartSplit(s, []);
      assert s + [] == s;
    }
    if Trim(s) == [] {
      TrimIsSlice(s);
      var a := |s| - |TrimStart(s)|;
      forall i | 0 <= i < |s| ensures IsSpace(s[i]) {
        if i < a {
          assert s[i] == s[..a][i];
        } else {
          assert s[i] == s[a..][i - a];
        }
      }
    }
  }

  /** A string with no white space at its ends is its own trim, so trimming is idempotent. */
  lemma TrimTrimmed(s: string)
    requires IsTrimmed(s)
    ensures Trim(s) == s
  {
  }

  lemma TrimIdempotent(s: string)
    ensures Trim(Trim(s)) == Trim(s)
  {
    TrimTrimmed(Trim(s));
  }

  /** Leading white space followed by a non-space: `trimStart` removes exactly the
      white space. */
  lemma {:induction false} TrimStartSplit(a: string, b: string)
    requires AllSpace(a)
    requires b == [] || !IsSpace(b[0])
    ensures TrimStart(a + b) == b
    decreases |a|
  {
    if a == [] {
      assert a + b == b;
    } else {
      assert (a + b)[1..] == a[1..] + b;
      TrimStartSplit(a[1..], b);
    }
  }

  /** A non-space followed by trailing white space: `trimEnd` removes exactly the
      white space. */
  lemma {:induction false} TrimEndSplit(a: string, b: string)
    requires AllSpace(b)
    requires a == [] || !IsSpace(a[|a| - 1])
    ensures TrimEnd(a + b) == a
    decreases |b|
  {
    if b == [] {
      assert a + b == a;
    } else {
      assert (a + b)[..|a + b| - 1] == a + b[..|b| - 1];
      TrimEndSplit(a, b[..|b| - 1]);
    }
  }

  // ------------------------------------------------------- searching a string

  /** `p` occurs in `s` starting at index `i`. */
  predicate MatchAt(s: string, p: string, i: int) {
    0 <= i && i + |p| <= |s| && s[i..i + |p|] == p
  }

  predicate Occurs(s: string, p: string) {
    exists i :: 0 <= i <= |s| && MatchAt(s, p, i)
  }

  lemma MatchAtTail(s: string, p: string, i: int)
    requires s != [] && 0 <= i
    ensures MatchAt(s[1..], p, i) <==> MatchAt(s, p, i + 1)
  {
    if 0 <= i && i + |p| <= |s| - 1 {
      assert s[1..][i..i + |p|] == s[i + 1..i + 1 + |p|];
    }
  }

  /** The leftmost occurrence of `p` in `s`, as `indexOf` finds it. */
  function FirstMatch(s: string, p: string): (r: Option<nat>)
    ensures r.Some? ==> MatchAt(s, p, r.value) && forall j :: 0 <= j < r.value ==> !MatchAt(s, p, j)
    ensures r.None? ==> forall j :: !MatchAt(s, p, j)
    decreases |s|
  {
    if p <= s then
      assert s[0..|p|] == p;
      Some(0)
    else if s == [] then None
    else
      var rest := FirstMatch(s[1..], p);
      forall j | 0 <= j ensures MatchAt(s[1..], p, j) <==> MatchAt(s, p, j + 1) {
        MatchAtTail(s, p, j);
      }
      assert !MatchAt(s, p, 0);
      match rest
      case None =>
        assert forall j | 0 < j :: !MatchAt(s, p, j) by {
          forall j | 0 < j ensures !MatchAt(s, p, j) { MatchAtTail(s, p, j - 1); }
        }
        None
      case Some(i) =>
        assert forall j | 0 < j < i + 1 :: !MatchAt(s, p, j) by {
          forall j | 0 < j < i + 1 ensures !MatchAt(s, p, j) { MatchAtTail(s, p, j - 1); }
        }
        Some(i + 1)
  }

  /** Index of the first `c` in `s`. */
  function FirstIndex(s: string, c: char): (r: Option<nat>)
    ensures r.Some? ==> r.value < |s| && s[r.value] == c && c !in s[..r.value]
    ensures r.None? ==> c !in s
    decreases |s|
  {
    if s == [] then None
    else if s[0] == c then Some(0)
    else
      match FirstIndex(s[1..], c)
      case None => None
      case Some(i) =>
        assert s[..i + 1] == [s[0]] + s[1..][..i];
        Some(i + 1)
  }

  /** The first `c` is at `i` when `s[i]` is `c` and no earlier character is. */
  lemma FirstIndexAt(s: string, c: char, i: nat)
    requires i < |s| && s[i] == c && c !in s[..i]
    ensures FirstIndex(s, c) == Some(i)
  {
    assert c in s;
  }

  /** Index of the last `c` in `s`. */
  function LastIndex(s: string, c: char): (r: Option<nat>)
    ensures r.Some? ==> r.value < |s| && s[r.value] == c && c !in s[r.value + 1..]
    ensures r.None? ==> c !in s
    decreases |s|
  {
    if s == [] then None
    else if s[|s| - 1] == c then Some(|s| - 1)
    else
      var r := LastIndex(s[..|s| - 1], c);
      assert s == s[..|s| - 1] + [s[|s| - 1]];
      if r.Some? then
        assert s[r.value + 1..] == s[..|s| - 1][r.value + 1..] + [s[|s| - 1]];
        r
      else r
  }

  // ------------------------------------------------------ global replacement

  /** The text that replaces one match, built as the GetSubstitution operation of the
      ECMAScript Language Specification builds it for a pattern without capture groups:
      `$$` gives a dollar sign, `$&` the matched text, `` $` `` the input before the match
      and `$'` the input after it. Any other `$` stands for itself; that covers `$1`..`$99`
      and `$<`, which would refer to groups the pattern does not have. */
  function Substitute(r: string, matched: string, before: string, after: string): (out: string)
    ensures '$' !in r ==> out == r
    decreases |r|
  {
    if r == [] then []
    else if r[0] == '$' && |r| >= 2 && (r[1] == '$' || r[1] == '&' || r[1] == '`' || r[1] == '\'') then
      var piece := if r[1] == '$' then "$" else if r[1] == '&' then matched else if r[1] == '`' then before else after;
      piece + Substitute(r[2..], matched, before, after)
    else
      [r[0]] + Substitute(r[1..], matched, before, after)
  }

  /** The four two-character patterns, each followed by any text. */
  lemma SubstitutePattern(x: char, rest: string, matched: string, before: string, after: string)
    requires x == '$' || x == '&' || x == '`' || x == '\''
    ensures Substitute(['$', x] + rest, matched, before, after)
         == (if x == '$' then "$" else if x == '&' then matched else if x == '`' then before else after)
            + Substitute(rest, matched, before, after)
  {
    assert (['$', x] + rest)[2..] == rest;
  }

  /** A `$` followed by any other character is copied, and scanning goes on at that
      character. */
  lemma SubstituteLoneDollar(x: char, rest: string, matched: string, before: string, after: string)
    requires x != '$' && x != '&' && x != '`' && x != '\''
    ensures Substitute(['$', x] + rest, matched, before, after)
         == "$" + Substitute([x] + rest, matched, before, after)
  {
    assert (['$', x] + rest)[1..] == [x] + rest;
  }

  /** Text without `$` in front of a replacement is copied as written. */
  lemma {:induction false} SubstitutePlain(a: string, rest: string, matched: string, before: string, after: string)
    requires '$' !in a
    ensures Substitute(a + rest, matched, before, after) == a + Substitute(rest, matched, before, after)
    decreases |a|
  {
    if a == [] {
      assert a + rest == rest;
    } else {
      assert (a + rest)[0] == a[0];
      assert (a + rest)[1..] == a[1..] + rest;
      assert '$' !in a[1..];
      SubstitutePlain(a[1..], rest, matched, before, after);
      assert a == [a[0]] + a[1..];
      Concat3([a[0]], a[1..], Substitute(rest, matched, before, after));
    }
  }

  /** The scan behind `ReplaceAll`: `pre` is the part of the input already passed, which
      `` $` `` refers to, and `s` is the rest. Each occurrence found scanning left to
      right is replaced, and scanning resumes after it. */
  function ReplaceFrom(pre: string, s: string, p: string, r: string): string
    requires |p| > 0
    decreases |s|
  {
    if p <= s then Substitute(r, p, pre, s[|p|..]) + ReplaceFrom(pre + p, s[|p|..], p, r)
    else if s == [] then []
    else [s[0]] + ReplaceFrom(pre + [s[0]], s[1..], p, r)
  }

  /** Reference definition of global replacement: take the leftmost occurrence, put its
      substitution in its place, and continue after it. */
  function SpecFrom(pre: string, s: string, p: string, r: string): string
    requires |p| > 0
    decreases |s|
  {
    match FirstMatch(s, p)
    case None => s
    case Some(i) =>
      s[..i] + Substitute(r, p, pre + s[..i], s[i + |p|..]) + SpecFrom(pre + s[..i + |p|], s[i + |p|..], p, r)
  }

  function ReplaceAllSpec(s: string, p: string, r: string): string
    requires |p| > 0
  {
    SpecFrom([], s, p, r)
  }

  /** `s.replace(/p/g, r)` for a literal, non-empty pattern and a replacement string,
      each match replaced by `Substitute` of `r` against the original input. */
  function ReplaceAll(s: string, p: string, r: string): (out: string)
    requires |p| > 0
    ensures !Occurs(s, p) ==> out == s
  {
    ReplaceFromAbsent([], s, p, r);
    ReplaceFrom([], s, p, r)
  }

  /** The scanning replacement agrees with the reference definition on every input. */
  lemma ReplaceAllMatchesSpec(s: string, p: string, r: string)
    requires |p| > 0
    ensures ReplaceAll(s, p, r) == ReplaceAllSpec(s, p, r)
  {
    ReplaceFromMatchesSpec([], s, p, r);
  }

  lemma Concat4(a: string, b: string, c: string, d: string)
    ensures a + (b + (c + d)) == a + b + c + d
  {
  }

  lemma Concat3(a: string, b: string, c: string)
    ensures a + (b + c) == a + b + c
  {
  }

  lemma NotPrefix(s: string, p: string)
    requires s != [] && !MatchAt(s, p, 0)
    ensures !(p <= s)
  {
  }

  /** A pattern containing a character that the text lacks does not occur in it. */
  lemma AbsentChar(s: string, p: string, c: char)
    requires c in p && c !in s
    ensures !Occurs(s, p)
  {
  }

  /** A prefix that does not contain the pattern's first character is copied. */
  lemma ReplaceFromNoMatchBefore(pre: string, a: string, t: string, p: string, r: string)
    requires |p| > 0 && p[0] !in a
    ensures ReplaceFrom(pre, a + t, p, r) == a + ReplaceFrom(pre + a, t, p, r)
  {
    var s := a + t;
    forall j | 0 <= j < |a| ensures !MatchAt(s, p, j) {
      assert s[j] == a[j];
    }
    ReplaceFromCopies(pre, s, p, r, |a|);
    assert s[..|a|] == a && s[|a|..] == t;
  }

  /** A leading character that does not start an occurrence is copied. */
  lemma ReplaceFromCons(pre: string, c: char, t: string, p: string, r: string)
    requires |p| > 0 && !(p <= [c] + t)
    ensures ReplaceFrom(pre, [c] + t, p, r) == [c] + ReplaceFrom(pre + [c], t, p, r)
  {
    assert ([c] + t)[1..] == t;
  }

  /** Characters before the first occurrence are copied unchanged. */
  lemma {:induction false} ReplaceFromCopies(pre: string, s: string, p: string, r: string, k: nat)
    requires |p| > 0 && k <= |s|
    requires forall j :: 0 <= j < k ==> !MatchAt(s, p, j)
    ensures ReplaceFrom(pre, s, p, r) == s[..k] + ReplaceFrom(pre + s[..k], s[k..], p, r)
    decreases k
  {
    if k > 0 {
      NotPrefix(s, p);
      var pre' := pre + [s[0]];
      assert ReplaceFrom(pre, s, p, r) == [s[0]] + ReplaceFrom(pre', s[1..], p, r);
      forall j | 0 <= j < k - 1 ensures !MatchAt(s[1..], p, j) {
        MatchAtTail(s, p, j);
      }
      ReplaceFromCopies(pre', s[1..], p, r, k - 1);
      assert s[1..][k - 1..] == s[k..];
      assert s[..k] == [s[0]] + s[1..][..k - 1];
      assert pre' + s[1..][..k - 1] == pre + s[..k];
    } else {
      assert s[..0] == [] && s[0..] == s;
      assert pre + [] == pre;
    }
  }

  /** The scan agrees with the reference definition on every input. */
  lemma {:induction false} ReplaceFromMatchesSpec(pre: string, s: string, p: string, r: string)
    requires |p| > 0
    ensures ReplaceFrom(pre, s, p, r) == SpecFrom(pre, s, p, r)
    decreases |s|
  {
    match FirstMatch(s, p)
    case None =>
      ReplaceFromAbsent(pre, s, p, r);
    case Some(i) =>
      ReplaceFromAt(pre, s, p, r, i);
      ReplaceFromMatchesSpec(pre + s[..i + |p|], s[i + |p|..], p, r);
  }

  /** Text in which the pattern does not occur comes back unchanged. */
  lemma ReplaceFromAbsent(pre: string, s: string, p: string, r: string)
    requires |p| > 0
    ensures !Occurs(s, p) ==> ReplaceFrom(pre, s, p, r) == s
  {
    if !Occurs(s, p) {
      ReplaceFromCopies(pre, s, p, r, |s|);
      assert s[|s|..] == [] && s[..|s|] == s;
    }
  }

  /** A text that is exactly the pattern becomes the expansion of the replacement. */
  lemma ReplaceAllWhole(q: string, c: string)
    requires |q| > 0
    ensures ReplaceAll(q, q, c) == Substitute(c, q, [], [])
  {
    assert MatchAt(q, q, 0) by { assert q[0..|q|] == q; }
    ReplaceFromPrefix([], q, q, c);
    assert q[|q|..] == [];
    assert ReplaceFrom([] + q, [], q, c) == [];
    assert Substitute(c, q, [], []) + [] == Substitute(c, q, [], []);
  }

  /** Replacing a pattern without `$` by itself is the identity. */
  lemma {:induction false} ReplaceFromSelf(pre: string, s: string, p: string)
    requires |p| > 0 && '$' !in p
    ensures ReplaceFrom(pre, s, p, p) == s
    decreases |s|
  {
    if p <= s {
      ReplaceFromSelf(pre + p, s[|p|..], p);
      assert s == s[..|p|] + s[|p|..];
    } else if s != [] {
      ReplaceFromSelf(pre + [s[0]], s[1..], p);
      assert s == [s[0]] + s[1..];
    }
  }

  lemma ReplaceAllSelf(s: string, p: string)
    requires |p| > 0 && '$' !in p
    ensures ReplaceAll(s, p, p) == s
  {
    ReplaceFromSelf([], s, p);
  }

  /** Text with no occurrence before index `k` and an occurrence at `k`. */
  lemma ReplaceFromAt(pre: string, s: string, p: string, r: string, k: nat)
    requires |p| > 0 && MatchAt(s, p, k)
    requires forall j :: 0 <= j < k ==> !MatchAt(s, p, j)
    ensures ReplaceFrom(pre, s, p, r)
         == s[..k] + Substitute(r, p, pre + s[..k], s[k + |p|..]) + ReplaceFrom(pre + s[..k + |p|], s[k + |p|..], p, r)
  {
    ReplaceFromCopies(pre, s, p, r, k);
    var q := pre + s[..k];
    ReplaceFromMatch(q, s, p, r, k);
    assert s[..k + |p|] == s[..k] + s[k..k + |p|];
    assert q + p == pre + s[..k + |p|];
    Concat3(s[..k], Substitute(r, p, q, s[k + |p|..]), ReplaceFrom(q + p, s[k + |p|..], p, r));
  }

  lemma ReplaceFromMatch(q: string, s: string, p: string, r: string, k: nat)
    requires |p| > 0 && MatchAt(s, p, k)
    ensures ReplaceFrom(q, s[k..], p, r) == Substitute(r, p, q, s[k + |p|..]) + ReplaceFrom(q + p, s[k + |p|..], p, r)
  {
    var t := s[k..];
    assert t[..|p|] == s[k..k + |p|];
    ReplaceFromPrefix(q, t, p, r);
    assert t[|p|..] == s[k + |p|..];
  }

  /** Text that starts with the pattern. */
  lemma ReplaceFromPrefix(pre: string, t: string, p: string, r: string)
    requires |p| > 0 && MatchAt(t, p, 0)
    ensures ReplaceFrom(pre, t, p, r) == Substitute(r, p, pre, t[|p|..]) + ReplaceFrom(pre + p, t[|p|..], p, r)
  {
    assert t[..|p|] == t[0..|p|];
    assert p <= t;
  }

  // ---------------------------------------------------------- split and join

  /** `s.split(sep)` for a one-character separator. */
  function Split(s: string, sep: char): (parts: seq<string>)
    ensures |parts| >= 1
    ensures forall i :: 0 <= i < |parts| ==> sep !in parts[i]
    decreases |s|
  {
    match FirstIndex(s, sep)
    case None => [s]
    case Some(i) => [s[..i]] + Split(s[i + 1..], sep)
  }

  /** `parts.join(sep)`. */
  function Join(parts: seq<string>, sep: string): string
    decreases |parts|
  {
    if |parts| == 0 then ""
    else if |parts| == 1 then parts[0]
    else parts[0] + sep + Join(parts[1..], sep)
  }

  /** Joining the pieces of a split with the separator gives back the input. */
  lemma {:induction false} SplitJoin(s: string, sep: char)
    ensures Join(Split(s, sep), [sep]) == s
    decreases |s|
  {
    match FirstIndex(s, sep)
    case None =>
    case Some(i) =>
      var rest := Split(s[i + 1..], sep);
      var parts := [s[..i]] + rest;
      assert Split(s, sep) == parts;
      assert parts[1..] == rest;
      assert Join(parts, [sep]) == s[..i] + [sep] + Join(rest, [sep]);
      SplitJoin(s[i + 1..], sep);
      assert s == s[..i] + [sep] + s[i + 1..];
  }

  /** Splitting text around one separator splits the two sides independently. */
  lemma {:induction false} SplitAppend(a: string, b: string, sep: char)
    ensures Split(a + [sep] + b, sep) == Split(a, sep) + Split(b, sep)
    decreases |a|
  {
    var s := a + [sep] + b;
    match FirstIndex(a, sep)
    case None =>
      assert s[..|a|] == a;
      assert s[|a| + 1..] == b;
      FirstIndexAt(s, sep, |a|);
    case Some(i) =>
      assert s[..i] == a[..i];
      assert s[i + 1..] == a[i + 1..] + [sep] + b;
      FirstIndexAt(s, sep, i);
      SplitAppend(a[i + 1..], b, sep);
  }

  lemma OccursWithin(a: string, s: string, b: string, p: string)
    requires Occurs(s, p)
    ensures Occurs(a + s + b, p)
  {
    var i :| 0 <= i <= |s| && MatchAt(s, p, i);
    assert (a + s + b)[|a| + i..|a| + i + |p|] == s[i..i + |p|];
    assert MatchAt(a + s + b, p, |a| + i);
  }

  /** Every part occurs in the joined string. */
  lemma {:induction false} JoinContains(parts: seq<string>, sep: string, k: nat)
    requires k < |parts|
    ensures Occurs(Join(parts, sep), parts[k])
    decreases |parts|
  {
    if |parts| == 1 {
      assert MatchAt(parts[0], parts[0], 0);
    } else if k == 0 {
      assert MatchAt(Join(parts, sep), parts[0], 0);
    } else {
      JoinContains(parts[1..], sep, k - 1);
      OccursWithin(parts[0] + sep, Join(parts[1..], sep), [], parts[k]);
      assert parts[0] + sep + Join(parts[1..], sep) + [] == Join(parts, sep);
    }
  }

  // ---------------------------------------------------------- number display

  function DigitChar(d: nat): (c: char)
    requires d < 10
    ensures '0' <= c <= '9' && c as int - '0' as int == d
  {
    "0123456789"[d]
  }

  predicate AllDigits(s: string) {
    forall i :: 0 <= i < |s| ==> '0' <= s[i] <= '9'
  }

  /** Decimal digits of a natural number, most significant first, no leading zero. */
  function NatToString(n: nat): (r: string)
    ensures |r| >= 1 && AllDigits(r)
    ensures |r| > 1 ==> r[0] != '0'
    decreases n
  {
    if n < 10 then [DigitChar(n)] else NatToString(n / 10) + [DigitChar(n % 10)]
  }

  /** How an integer prints inside a JavaScript template literal. */
  function IntToString(n: int): (r: string)
    ensures |r| >= 1
    ensures n < 0 <==> r[0] == '-'
  {
    if n < 0 then "-" + NatToString(-n) else NatToString(n)
  }

  /** The value of a string of decimal digits. */
  function DigitsValue(s: string): nat
    requires AllDigits(s)
    decreases |s|
  {
    if s == [] then 0 else DigitsValue(s[..|s| - 1]) * 10 + (s[|s| - 1] as int - '0' as int)
  }

  /** Reading the printed digits back gives the number. */
  lemma {:induction false} NatToStringRoundTrip(n: nat)
    ensures DigitsValue(NatToString(n)) == n
    decreases n
  {
    if n >= 10 {
      NatToStringRoundTrip(n / 10);
      var s := NatToString(n);
      assert s[..|s| - 1] == NatToString(n / 10);
    }
  }
}

=== FILE: wrappers.dfy ===
/** Failure-carrying datatypes used wherever the system can return "nothing" or an error. */
module Wrappers {

  /** A JavaScript value that may be `null`/`undefined` (None) or present (Some). */
  datatype Option<+T> = None | Some(value: T) {
    function GetOr(default: T): T {
      match this
      case Some(v) => v
      case None => default
    }
  }

  /** The outcome of a call into an external service: a value, or an error message. */
  datatype Result<+R> = Success(value: R) | Failure(error: string)
}
